=== FILE: README.md ===
# build-and-push-action, modelled in Dafny

The action authenticates against an OAuth endpoint and builds and pushes a
Docker image to `registry.trynova.ai`. It publishes the image location as
an output and records the image as an artifact through a GraphQL mutation.
The GraphQL call goes through the vendored `hasura/go-graphql-client`.

This project models two parts and proves properties about them:

- **The GraphQL client's outcome handling.** This is `request`,
  `processResponse`, the `do`/`doRaw`/`Exec*` entry points and the `Error`
  helpers. The model says which errors a call reports, with which
  classification code, how many and in which order. It says when raw data
  survives next to errors. It says what debug mode records under the
  `internal` extension.
- **The action's own rules.** This covers the image location string, the
  `docker build` and `docker push` command lines, the token format check,
  the headers the custom transport sets, the artifact input, and the order
  of the steps in `main`.

Modules:

- `Basics`: `Option` and `Result`.
- `Strings`: Go's `%d`, `strings.Split` on one character with its inverse
  `Join`, and byte-wise string order. `fmt` prints map keys in that order.
- `Headers`: `http.Header` with canonical keys, plus `Get`, `Set` and `Add`.
- `GraphQLErrors`: the `Error` record, `newError`, `Error()` text,
  `Unwrap`, and `withRequest`/`withResponse`.
- `GraphQLClient`: client construction, the stages of `request`,
  `processResponse`, `buildQueryAndOptions` and the entry points.
- `Action`: `main.go`.

Everything the code hands to libraries or the operating system becomes an
input of the model:

- JSON encoding and decoding, gzip, base64;
- the network exchange;
- running `docker` and `sh`;
- writing files.

A failed step is an error value. A Go panic is usually a precondition
that rules out the panicking input, and the precondition names the cause.
The exception is the out-of-range read of the command-line values, which
is the `OutOfRange` outcome, because the command-line finding below turns
on it.

## Model

| member | source | states |
|---|---|---|
| GraphQLClient.NewClient | vendor/github.com/hasura/go-graphql-client/graphql.go:36-45 | a nil HTTP client becomes the default client; the new client has no modifier and debug mode off |
| GraphQLClient.WithRequestModifier | vendor/github.com/hasura/go-graphql-client/graphql.go:348-354 | the copy keeps URL and HTTP client, carries the new modifier, and has debug mode off |
| GraphQLClient.WithDebug | vendor/github.com/hasura/go-graphql-client/graphql.go:357-364 | the copy differs from the original only in its debug flag |
| GraphQLClient.DerivationOrder | vendor/github.com/hasura/go-graphql-client/graphql.go:348-364 | adding a modifier after enabling debug mode switches it off again; the other order keeps both |
| GraphQLClient.Payload | vendor/github.com/hasura/go-graphql-client/graphql.go:125-132 | the payload carries query and variables; the operation name comes from the options, or is empty without them |
| GraphQLClient.NonEmpty | vendor/github.com/hasura/go-graphql-client/graphql.go:226-234 | a raw JSON part is kept exactly when present and non-empty |
| GraphQLClient.SentHeaders | vendor/github.com/hasura/go-graphql-client/graphql.go:149-153 | the request starts with exactly `Content-Type: application/json`, found under any spelling of the name; without a modifier that is what it carries, and a modifier is applied to exactly those headers |
| GraphQLClient.WireHeaders | vendor/github.com/hasura/go-graphql-client/graphql.go:149-155 | the default client sends the headers as they are; a custom transport rewrites what the modifier produced, or the plain JSON content type when there is no modifier |
| GraphQLClient.CaptureKeepsGuardOpen | vendor/github.com/hasura/go-graphql-client/graphql.go:236-241 | the guard looks for a top-level `request` extension that the captures never write, so a captured error still passes the guard |
| GraphQLClient.CaptureRequest | vendor/github.com/hasura/go-graphql-client/graphql.go:161-166 | outside debug mode the error is untouched; in debug mode the request headers and body are recorded under `internal.request`, and code and message are kept |
| GraphQLClient.FromEnvelope | vendor/github.com/hasura/go-graphql-client/graphql.go:226-246 | data and extensions come back next to errors; the error count is preserved; only the first error is enriched, only in debug mode, only when it has no `request` extension; the response reader is returned exactly in debug mode |
| GraphQLClient.Receive | vendor/github.com/hasura/go-graphql-client/graphql.go:170-224 | a gzip reader failure wins over the status; a non-200 status gives one `request_error` wrapping the status and body; a debug read failure or a decode failure gives one `json_decode_error`; otherwise the envelope stage |
| GraphQLClient.Send | vendor/github.com/hasura/go-graphql-client/graphql.go:140-167 | a request that cannot be built gives one `request_error` with the "problem constructing request" context; a failed `Do` gives one `request_error` wrapping its error |
| GraphQLClient.Request | vendor/github.com/hasura/go-graphql-client/graphql.go:124-247 | an encoding failure gives one `graphql_encode_error`; with no response there is exactly one error and no data or extensions; data implies a response; in debug mode a call that got a response hands back the response reader |
| GraphQLClient.GzipTransparent | vendor/github.com/hasura/go-graphql-client/graphql.go:172-179 | outside debug mode a gzip-encoded response decodes to the same data, extensions and errors as the plain response it inflates to |
| GraphQLClient.DebugIgnoresGzip | vendor/github.com/hasura/go-graphql-client/graphql.go:172-211 | in debug mode, once a gzip reader could be created, what it would inflate to makes no difference to the response stage |
| GraphQLClient.DebugDecodesRawBody | vendor/github.com/hasura/go-graphql-client/graphql.go:200-211 | in debug mode a gzip-encoded response is decoded from what remains of the raw body: a failing raw decode ends in `json_decode_error` even when the gzip stream would decode, and a good one gives the raw envelope |
| GraphQLClient.DrainedAfterCapture | vendor/github.com/hasura/go-graphql-client/graphql.go:236-241 | after the first envelope error records the response in debug mode, a later `graphql_decode_error` in the same call records an empty body |
| GraphQLClient.ProcessResponse | vendor/github.com/hasura/go-graphql-client/graphql.go:318-343 | incoming errors first, then at most one `graphql_decode_error`, then at most one `graphql_extensions_decode_error`; the result is nil exactly when nothing is reported; in debug mode the decode error records the response |
| GraphQLClient.DecodeError | vendor/github.com/hasura/go-graphql-client/graphql.go:322-325 | the decode error carries the `graphql_decode_error` code and wraps the decoder's error; in debug mode it records the response headers and the debug copy of the body |
| GraphQLClient.BuildQueryAndOptions | vendor/github.com/hasura/go-graphql-client/graphql.go:104-121 | operation 0 uses the query builder and operation 1 the mutation builder; any other operation, or a builder failure, gives one `graphql_encode_error` ("invalid operation type: N") |
| GraphQLClient.DoRaw | vendor/github.com/hasura/go-graphql-client/graphql.go:251-262 | a build failure returns its error list and no data; otherwise the raw data comes back even with errors, and the error is nil exactly when the list is empty |
| GraphQLClient.MutationIgnoresQueryBuilder | vendor/github.com/hasura/go-graphql-client/graphql.go:104-121 | a mutation never consults the query builder, and a failing mutation builder makes `doRaw` return that one `graphql_encode_error` and no data |
| GraphQLClient.Do | vendor/github.com/hasura/go-graphql-client/graphql.go:265-273 | a failure before any response is exactly one error; the errors `request` returns (transport, status, decode or the server's envelope errors) come first, then the decode errors; the call succeeds exactly when `request` reports none and no decode fails |
| GraphQLClient.DoFailsUndispatched | vendor/github.com/hasura/go-graphql-client/graphql.go:104-143 | a call whose request is never handed to the HTTP client (a builder failure, an encoding failure or a request that cannot be built) reports an error |
| GraphQLClient.DoAgreesWithDoRaw | vendor/github.com/hasura/go-graphql-client/graphql.go:251-273 | when the typed decodes succeed, `do` reports exactly what `doRaw` reports |
| GraphQLClient.Exec | vendor/github.com/hasura/go-graphql-client/graphql.go:277-285 | an options failure is returned as a plain error; otherwise as `do` for the given query |
| GraphQLClient.ExecRaw | vendor/github.com/hasura/go-graphql-client/graphql.go:289-300 | an options failure is returned as a plain error with no data; otherwise data and the error list, nil when empty |
| GraphQLClient.ExecRawWithExtensions | vendor/github.com/hasura/go-graphql-client/graphql.go:305-316 | agrees with `ExecRaw` on data and error, and also returns the raw extensions |
| GraphQLErrors.MessageLayout | vendor/github.com/hasura/go-graphql-client/graphql.go:384-386 | an error's text is "Message: ", then the message itself, then ", Locations: " |
| GraphQLClient.NewErrorMessage | vendor/github.com/hasura/go-graphql-client/graphql.go:384-386 | a call that fails with one error made by `newError` reports "Message: <cause>, Locations: [], Extensions: map[code:<code>], Path: []" |
| GraphQLErrors.Render | vendor/github.com/hasura/go-graphql-client/graphql.go:385 | `%+v` prints nil as `<nil>`, a slice between `[` and `]`, and a map between `map[` and `]` |
| GraphQLErrors.RenderListLayout | vendor/github.com/hasura/go-graphql-client/graphql.go:385 | a slice prints as the texts of its elements, in order, separated by single spaces, between `[` and `]` |
| GraphQLErrors.RenderObjectLayout | vendor/github.com/hasura/go-graphql-client/graphql.go:385 | a map prints as `key:value` entries in byte-wise key order, separated by single spaces, between `map[` and `]` |
| GraphQLErrors.RenderHeaderLayout | vendor/github.com/hasura/go-graphql-client/graphql.go:385 | an `http.Header` prints as `name:[values]` entries in byte-wise name order, separated by single spaces, between `map[` and `]` |
| GraphQLErrors.RenderSingleEntry | vendor/github.com/hasura/go-graphql-client/graphql.go:385 | a one-entry map prints as `map[key:value]` |
| GraphQLErrors.ErrorText | vendor/github.com/hasura/go-graphql-client/graphql.go:438-440 | an error's text is its contexts, outermost first, then the text of the innermost error, joined by ": "; a plain cause is its own text; a network error's text starts with the status code in decimal, ending at the first space; a wrapped error's text starts with its context and ": " |
| GraphQLErrors.WrappedText | vendor/github.com/hasura/go-graphql-client/graphql.go:143 | `%w` wrapping: the text is the context, ": ", then the full text of the wrapped error |
| GraphQLErrors.StatusText | vendor/github.com/hasura/go-graphql-client/graphql.go:438-440 | a reason phrase is given only for codes between 100 and 511 |
| GraphQLErrors.ErrorsText | vendor/github.com/hasura/go-graphql-client/graphql.go:394-400 | a list's text is empty exactly when the list is |
| GraphQLErrors.ErrorsTextAppend | vendor/github.com/hasura/go-graphql-client/graphql.go:394-400 | the text of a concatenation is the concatenation of the texts (no separator) |
| GraphQLErrors.ErrorsTextSingle | vendor/github.com/hasura/go-graphql-client/graphql.go:394-400 | a one-element list reads as its element |
| GraphQLErrors.Unwrap | vendor/github.com/hasura/go-graphql-client/graphql.go:403-409 | one wrapped cause per element, position by position |
| GraphQLErrors.UnwrapAppend | vendor/github.com/hasura/go-graphql-client/graphql.go:403-409 | unwrapping distributes over concatenation |
| GraphQLErrors.NewError | vendor/github.com/hasura/go-graphql-client/graphql.go:423-431 | message is the cause's text, the only extension is `code`, the cause is wrapped, and there are no locations or path |
| GraphQLErrors.GetInternalExtension | vendor/github.com/hasura/go-graphql-client/graphql.go:411-421 | the `internal` map when present, an empty map otherwise; a non-map `internal` is a panic, excluded by the precondition |
| GraphQLErrors.WithRequest | vendor/github.com/hasura/go-graphql-client/graphql.go:450-467 | sets `internal.request` to headers and body, or `internal.error` on a read failure; every other extension and internal entry and all other fields are kept; a missing extension map is created |
| GraphQLErrors.WithResponse | vendor/github.com/hasura/go-graphql-client/graphql.go:469-487 | sets `internal.response` to the headers, plus the body when read; a read failure goes to `internal.error`; everything else is kept; a nil extension map is a panic, excluded by the precondition |
| GraphQLErrors.CaptureKeepsCode | vendor/github.com/hasura/go-graphql-client/graphql.go:450-487 | recording request and response never changes the classification code |
| Strings.DecimalString | vendor/github.com/hasura/go-graphql-client/graphql.go:114 | `%d`/`%v` of an integer: a sign exactly for negatives, then digits with no leading zero (zero itself is "0"), and the text reads back as the integer |
| Strings.Digits | vendor/github.com/hasura/go-graphql-client/graphql.go:114 | the decimal digits of a natural number, with no leading zero, read back as that number |
| Strings.Split | main.go:64 | n separators give n + 1 pieces, none holding the separator, and joining them gives back the string |
| Strings.SplitJoin | main.go:64 | splitting a join of separator-free pieces gives the pieces back |
| Strings.SortedKeys | vendor/github.com/hasura/go-graphql-client/graphql.go:385 | the map keys `%+v` prints, each exactly once, in strictly increasing byte order |
| Headers.CanonicalKey | main.go:185-186 | same length, letters only change case, and a name with a non-token character is kept as is; otherwise the first letter and every letter after a hyphen are upper-case and the rest lower-case |
| Headers.CanonicalKeyIdempotent | main.go:185-186 | canonicalising twice is canonicalising once |
| Headers.CanonicalNames | main.go:186 | `x-organization` is stored as `X-Organization`; `Authorization`, `Content-Type` and `Content-Encoding` are already canonical |
| Headers.Get | vendor/github.com/hasura/go-graphql-client/graphql.go:172 | the first value stored under the canonical key of any spelling, or "" when the key is absent or holds no value |
| Headers.Set | main.go:185-186 | the canonical key holds exactly the new value; every other key is unchanged |
| Headers.Add | vendor/github.com/hasura/go-graphql-client/graphql.go:149 | the value is appended under the canonical key; every other key is unchanged |
| Headers.GetAfterSet | main.go:185-186 | a value set under any spelling is read back under any spelling with the same canonical form |
| Action.ParseLocation | main.go:164-166 | the location is the registry, "/", the image name, ":" and the tag |
| Action.SplitLocation | main.go:164-166 | a location that splits is the location of the name and tag it splits into |
| Action.LocationRoundTrip | main.go:164-166 | for a tag without ':', the location determines image name and tag |
| Action.RunDockerBuild | main.go:117-145 | an inline Dockerfile is written to `./Dockerfile` and built from there; otherwise the given path is built; with neither, the error is reported and nothing runs; a write failure stops before the build |
| Action.BuildEffects | main.go:117-145 | a failed build or Dockerfile write never leads to a push; a successful build ends with the `docker build` command for these inputs |
| Action.InlineDockerfileWins | main.go:124-132 | with an inline Dockerfile the path argument makes no difference |
| Action.RunDockerPush | main.go:147-162 | pushes exactly the built location and returns the output with the error |
| Action.SetOutputArgv | main.go:168-175 | `sh -c "echo ::set-output name=<name>::<value>"` |
| Action.DockerConfigContents | main.go:92-96 | the credentials file sends the token as `X-Meta-Authorization: Bearer <token>` |
| Action.UpdateDockerConfig | main.go:88-115 | the home directory lookup, the creation of `.docker` and the credentials write are attempted in that order, each only after the previous one succeeded; the first failure is the error, and the update succeeds exactly when all three do |
| Action.GetBearerToken | main.go:31-87 | a request that cannot be built, a failed transport call and an undecodable body return their error unchanged; a bad status reads "failed to get token: <status>"; a token without exactly three segments is rejected; the claims come from the middle segment and must hold a string `organization_id` |
| Action.TokenSegments | main.go:63-83 | a three-segment token is accepted exactly when its middle segment decodes to claims with a string `organization_id` |
| Action.ThreeSegments | main.go:64-65 | a token built from three dot-free segments splits into them |
| Action.RoundTripHeaders | main.go:184-188 | `Authorization` becomes the bearer token and `X-Organization` the organization, replacing earlier values; other headers are kept |
| Action.ArtifactInput | main.go:209-215 | a registry artifact with the given id, version and URL, and no tags |
| Action.ArtifactClient | main.go:193-201 | the API URL, the default settings, and an HTTP client whose transport is the custom transport with this token and organization |
| Action.ArtifactRequestHeaders | main.go:184-201 | the mutation is sent as JSON with the bearer token and the organization |
| Action.AddArtifact | main.go:190-229 | the mutation goes out, with the input under `input` and the transport's headers, exactly when the request is built and dispatched; a call that sends nothing fails; it fails exactly when the GraphQL call does, and then reads "failed to add artifact: " followed by that call's error text |
| Action.ReadArgs | main.go:238 | the seven values are read, in usage order from the second entry on, exactly when there are at least eight entries; otherwise the read panics at the length |
| Action.ParseArgsAsWritten | main.go:234-238 | the guard admits seven entries, which then panic on index 7; every other length gets the usage message |
| Action.ArgsAsWrittenNeverParse | main.go:234-238 | as written, no command line gets past argument reading |
| Action.ArgsAsWrittenCounterexample | main.go:234-238 | a concrete seven-entry command line panics on index 7 |
| Action.ParseArgs | main.go:234-238 | corrected guard: the values are read exactly when there are eight entries, in usage order |
| Action.Start | main.go:231-273 | with the corrected command-line check, any length other than eight stops with the usage message and no effects; eight entries run the steps on those values and the bearer token outcome |
| Action.RecordStep | main.go:268-271 | at most the one mutation is sent, and it records the image location with the tag as version; a completed run sent it; the run completes exactly when the mutation succeeds, and otherwise stops with its message |
| Action.PublishStep | main.go:262-266 | the location is published first; a failure stops before recording; otherwise the artifact is recorded next; the run completes exactly when the output and the artifact succeed |
| Action.PushStep | main.go:257-260 | the push comes first; a failure stops with the error and the push output; a completed run then publishes and records; the run completes exactly when push, output and artifact succeed |
| Action.BuildStep | main.go:252-255 | nothing is pushed unless the build succeeded; a completed run built, pushed, published and recorded the same location, in that order; it completes exactly when every later step succeeds |
| Action.RunAction | main.go:242-273 | a token failure attempts nothing; updating the Docker credentials comes first, and the credentials file is written only after the home directory was found and `.docker` created; a failed update or build stops before any push; a completed run had a token and built, pushed, published and recorded `registry.trynova.ai/<name>:<tag>` with the tag as version; the run completes exactly when the token, the credentials update and every later step succeed |

## Left out

- JSON encoding and decoding, gzip inflation and base64url decoding are inputs of the model: what each yields for the given bytes.
- The `url.Values` form body of the token request and the token endpoint call are replaced by the `TokenExchange` outcome.
- The home directory lookup, creating `~/.docker`, writing files and running processes have given outcomes; the `~/.docker` creation and the credentials write are effects without their paths (`filepath.Join` of the home directory is not modelled), and no effect carries permission bits; `log` output is not modelled.
- GraphQLErrors.Render: floating-point numbers are not modelled; JSON numbers are integers. `http.StatusText` is transcribed as a table.
- GraphQLClient.RequestModifier: a modifier and a transport act only on the request headers, not on URL, method or body.
- GraphQLClient.Receive: outside debug mode a read failure of the body is folded into the decoder's outcome.
- GraphQLClient.Send: whether a transport rewrites headers before or after a failure inside `Doer.Do` is not modelled; captures always see the rewritten headers.
- The reflection-based query builders (`constructQuery`, `constructMutation`, `constructOptions`) and the typed decoder `UnmarshalGraphQL` are given as outcomes.
- `Query`, `Mutate`, `QueryRaw`, `MutateRaw` and the deprecated `Named*` variants only fix the operation type and option list passed to `do`/`doRaw`; they are covered by those.
- Most panics are preconditions, not outcomes: a non-map `internal` extension, a nil extension map in `withResponse`, the nil request that debug mode hands to `withRequest` when the request cannot be built, and reading `os.Args[0]` from an empty argument list. The one exception is reading `os.Args[1]` to `os.Args[7]` past the end, which the model reports as the `OutOfRange` outcome because the command-line finding turns on it.
- GraphQLClient.Receive: what `gzip.NewReader` buffers from the start of a gzip-encoded body is not spelled out; the response's `body`, `bodyError` and `decoded` stand for what the client reads after that point.
- GraphQLErrors.StatusText: the contract states only the range of known codes; the table is transcribed from `net/http`.
- Contexts, cancellation, connection reuse and closing bodies are not modelled.

## Findings

| source | as written | input that shows it | evidently intended | confidence | as-written member | corrected member |
|---|---|---|---|---|---|---|
| main.go:234-238 | the guard accepts `len(os.Args) == 7`, then reads `os.Args[1]` to `os.Args[7]` | `action id secret image v1 artifact Dockerfile` (seven entries) passes the guard and panics on `os.Args[7]`; a full eight-entry command line gets the usage message | accept the program name plus the seven values of the usage message (`len(os.Args) == 8`) | high, not executed | Action.ParseArgsAsWritten, Action.ArgsAsWrittenCounterexample | Action.ParseArgs |

=== FILE: action.dfy ===
/** The action's entry point (main.go): the image location string, the
    docker command lines, the token check, the headers the custom transport
    sets, the artifact record, and the order in which `main` runs the steps.
    Processes, files and HTTP calls are replaced by their outcomes; what the
    action attempts is recorded as a list of effects. */
module Action {
  import opened Basics
  import opened Strings
  import opened Headers
  import opened GraphQLErrors
  import GraphQLClient

  const AuthURL := "https://auth.trynova.ai/realms/default/protocol/openid-connect/token"
  const RegistryURL := "registry.trynova.ai"
  const ApiURL := "https://api.trynova.ai/graphql"

  // ---------------------------------------------------------------------
  // The image location.

  /** `parseLocation(imageName, imageTag)`: `<registry>/<name>:<tag>`. The
      build and push steps format the same string for their targets. */
  function ParseLocation(imageName: string, imageTag: string): (r: string)
    ensures |r| == |RegistryURL| + 1 + |imageName| + 1 + |imageTag|
    ensures r[..|RegistryURL| + 1] == RegistryURL + "/"
    ensures r[|RegistryURL| + 1..|RegistryURL| + 1 + |imageName|] == imageName
    ensures r[|RegistryURL| + 1 + |imageName|] == ':'
    ensures r[|r| - |imageTag|..] == imageTag
  {
    RegistryURL + "/" + imageName + ":" + imageTag
  }

  /** Reads a location back into its image name and tag; the tag is what
      follows the last ':'. */
  function SplitLocation(location: string): (r: Option<(string, string)>)
    ensures r.Some? ==> ParseLocation(r.value.0, r.value.1) == location && ':' !in r.value.1
  {
    var prefix := RegistryURL + "/";
    if |location| < |prefix| || location[..|prefix|] != prefix then None
    else
      var rest := location[|prefix|..];
      if ':' !in rest then None
      else
        var i := LastIndexOf(rest, ':');
        assert rest == rest[..i] + ":" + rest[i + 1..];
        assert location == prefix + rest;
        Some((rest[..i], rest[i + 1..]))
  }

  /** The location determines the image name and tag, as long as the tag
      holds no ':': `SplitLocation` inverts `ParseLocation`. */
  lemma LocationRoundTrip(imageName: string, imageTag: string)
    requires ':' !in imageTag
    ensures SplitLocation(ParseLocation(imageName, imageTag)) == Some((imageName, imageTag))
  {
    var prefix := RegistryURL + "/";
    var location := ParseLocation(imageName, imageTag);
    assert location == prefix + (imageName + ":" + imageTag);
    var rest := location[|prefix|..];
    assert rest == imageName + ":" + imageTag;
    assert rest[|imageName|] == ':';
    var i := LastIndexOf(rest, ':');
    assert i == |imageName|;
    assert rest[..i] == imageName;
    assert rest[i + 1..] == imageTag;
  }

  // ---------------------------------------------------------------------
  // Effects the action attempts.

  datatype TagInput = TagInput(key: string, value: string)
  datatype RegistryArtifactInput = RegistryArtifactInput(url: string)

  /** The `AddArtifactInput` GraphQL input (api/models/models.go). */
  datatype AddArtifactInput = AddArtifactInput(
    artifactType: string,
    artifactId: string,
    version: string,
    tags: seq<TagInput>,
    registry: RegistryArtifactInput)

  datatype Effect =
    | CreateConfigDir                              // os.MkdirAll(~/.docker, 0700)
    | WriteDockerConfig(contents: string)          // ~/.docker/config.json
    | WriteFile(path: string, contents: string)
    | Exec(argv: seq<string>)
    | Mutate(headers: Headers, variables: map<string, AddArtifactInput>)

  // ---------------------------------------------------------------------
  // Docker build and push.

  /** `runDockerBuild`: an inline Dockerfile is written to `./Dockerfile`
      and replaces any path given; with neither, nothing is run. Returns the
      effects attempted and the error reported. */
  function RunDockerBuild(dockerfilePath: string, dockerfile: string, imageName: string, imageTag: string,
                          writeError: Option<GoError>, runError: Option<GoError>): (r: (seq<Effect>, Option<GoError>))
    ensures dockerfile != "" ==>
              && |r.0| >= 1 && r.0[0] == WriteFile("./Dockerfile", dockerfile)
              && (writeError.Some? ==> r == ([r.0[0]], writeError))
              && (writeError.None? ==>
                    r == ([r.0[0], Exec(["docker", "build", "-f", "./Dockerfile", "-t",
                                         ParseLocation(imageName, imageTag), "."])], runError))
    ensures dockerfile == "" && dockerfilePath != "" ==>
              r == ([Exec(["docker", "build", "-f", dockerfilePath, "-t",
                           ParseLocation(imageName, imageTag), "."])], runError)
    ensures dockerfile == "" && dockerfilePath == "" ==>
              r == ([], Some(Cause("either dockerfilePath or dockerfile must be set")))
  {
    var fullImageName := RegistryURL + "/" + imageName + ":" + imageTag;
    if dockerfile != "" then
      var written := [WriteFile("./Dockerfile", dockerfile)];
      if writeError.Some? then (written, writeError)
      else ([written[0], Exec(["docker", "build", "-f", "./Dockerfile", "-t", fullImageName, "."])], runError)
    else if dockerfilePath != "" then
      ([Exec(["docker", "build", "-f", dockerfilePath, "-t", fullImageName, "."])], runError)
    else
      ([], Some(Cause("either dockerfilePath or dockerfile must be set")))
  }

  /** An inline Dockerfile makes the given path irrelevant. */
  lemma InlineDockerfileWins(path1: string, path2: string, dockerfile: string, imageName: string,
                             imageTag: string, writeError: Option<GoError>, runError: Option<GoError>)
    requires dockerfile != ""
    ensures RunDockerBuild(path1, dockerfile, imageName, imageTag, writeError, runError)
            == RunDockerBuild(path2, dockerfile, imageName, imageTag, writeError, runError)
  {
  }

  /** `runDockerPush`: runs `docker push <location>` and returns its output
      together with its error. */
  function RunDockerPush(imageName: string, imageTag: string, output: string,
                         runError: Option<GoError>): (r: (seq<Effect>, string, Option<GoError>))
    ensures r.0 == [Exec(["docker", "push", ParseLocation(imageName, imageTag)])]
    ensures r.1 == output && r.2 == runError
  {
    var fullImageName := RegistryURL + "/" + imageName + ":" + imageTag;
    ([Exec(["docker", "push", fullImageName])], output, runError)
  }

  /** `setOutput(name, value)`: the shell command that records an output. */
  function SetOutputArgv(name: string, value: string): (r: seq<string>)
    ensures |r| == 3 && r[0] == "sh" && r[1] == "-c"
    ensures |r[2]| == 23 + |name| + 2 + |value|
    ensures r[2][..23] == "echo ::set-output name="
    ensures r[2][23..23 + |name|] == name && r[2][23 + |name|..23 + |name| + 2] == "::"
    ensures r[2][23 + |name| + 2..] == value
  {
    ["sh", "-c", "echo ::set-output name=" + name + "::" + value]
  }

  /** The text of the credentials file around the bearer token: every
      registry request carries `X-Meta-Authorization: Bearer <token>`. */
  const ConfigHead := "{\n\t\t\"HttpHeaders\" : {\n\t\t\t\"X-Meta-Authorization\" : \"Bearer "
  const ConfigTail := "\"\n\t\t}\n\t}"

  /** The credentials file `updateDockerConfig` writes. */
  function DockerConfigContents(token: string): (r: string)
    ensures |r| == |ConfigHead| + |token| + |ConfigTail|
    ensures r[..|ConfigHead|] == ConfigHead
    ensures r[|ConfigHead|..|ConfigHead| + |token|] == token
    ensures r[|ConfigHead| + |token|..] == ConfigTail
  {
    "{\n\t\t\"HttpHeaders\" : {\n\t\t\t\"X-Meta-Authorization\" : \"Bearer " + token + "\"\n\t\t}\n\t}"
  }

  /** `updateDockerConfig`: looks up the home directory, creates `.docker`
      under it, then writes the credentials file, stopping at the first
      failure. `homeError`, `mkdirError` and `writeError` are what
      `os.UserHomeDir`, `os.MkdirAll` and `os.WriteFile` report. Returns the
      effects attempted and the error reported. */
  function UpdateDockerConfig(token: string, homeError: Option<GoError>, mkdirError: Option<GoError>,
                              writeError: Option<GoError>): (r: (seq<Effect>, Option<GoError>))
    ensures homeError.Some? ==> r == ([], homeError)
    ensures homeError.None? ==> |r.0| >= 1 && r.0[0] == CreateConfigDir
    ensures homeError.None? && mkdirError.Some? ==> r == ([CreateConfigDir], mkdirError)
    ensures |r.0| == 2 <==> homeError.None? && mkdirError.None?
    ensures |r.0| == 2 ==> r.0[1] == WriteDockerConfig(DockerConfigContents(token)) && r.1 == writeError
    ensures r.1.None? <==> homeError.None? && mkdirError.None? && writeError.None?
  {
    if homeError.Some? then ([], homeError)
    else if mkdirError.Some? then ([CreateConfigDir], mkdirError)
    else ([CreateConfigDir, WriteDockerConfig(DockerConfigContents(token))], writeError)
  }

  // ---------------------------------------------------------------------
  // The bearer token.

  /** What the OAuth token request (a client-credentials POST to `AuthURL`)
      yields, up to the decoded access token. */
  datatype TokenExchange =
    | RequestNotBuilt(err: GoError)   // http.NewRequest failed
    | TransportFailed(err: GoError)   // client.Do failed
    | BadStatus(status: string)       // a status other than 200, e.g. "401 Unauthorized"
    | BodyUndecodable(err: GoError)   // the JSON body did not decode
    | Issued(accessToken: string)

  /** `getBearerToken`: the access token must have exactly three
      dot-separated segments; the middle one is base64url-decoded
      (`decodeSegment`) and parsed as a JSON object (`parseClaims`), which
      must hold a string `organization_id`. */
  function GetBearerToken(exchange: TokenExchange, decodeSegment: string -> Result<string, GoError>,
                          parseClaims: string -> Result<map<string, Value>, GoError>): (r: Result<(string, string), GoError>)
    ensures r.Success? ==>
              && exchange.Issued? && r.value.0 == exchange.accessToken
              && Occurrences(exchange.accessToken, '.') == 2
    ensures exchange.Issued? && Occurrences(exchange.accessToken, '.') != 2 ==>
              r == Failure(Cause("invalid token format"))
    ensures exchange.BadStatus? ==> r == Failure(Cause("failed to get token: " + exchange.status))
    ensures exchange.RequestNotBuilt? || exchange.TransportFailed? || exchange.BodyUndecodable? ==>
              r == Failure(exchange.err)
    ensures exchange.Issued? && Occurrences(exchange.accessToken, '.') == 2 ==>
              var segment := Split(exchange.accessToken, '.')[1];
              && (decodeSegment(segment).Failure? ==> r == Failure(decodeSegment(segment).error))
              && (decodeSegment(segment).Success? ==>
                    var claims := parseClaims(decodeSegment(segment).value);
                    && (claims.Failure? ==> r == Failure(claims.error))
                    && (claims.Success? ==>
                          if "organization_id" in claims.value && claims.value["organization_id"].Str?
                          then r == Success((exchange.accessToken, claims.value["organization_id"].s))
                          else r == Failure(Cause("organization_id not found in token"))))
  {
    match exchange
    case RequestNotBuilt(err) => Failure(err)
    case TransportFailed(err) => Failure(err)
    case BadStatus(status) => Failure(Cause("failed to get token: " + status))
    case BodyUndecodable(err) => Failure(err)
    case Issued(token) =>
      var segments := Split(token, '.');
      if |segments| != 3 then Failure(Cause("invalid token format"))
      else
        match decodeSegment(segments[1])
        case Failure(err) => Failure(err)
        case Success(bytes) =>
          match parseClaims(bytes)
          case Failure(err) => Failure(err)
          case Success(claims) =>
            if "organization_id" in claims && claims["organization_id"].Str?
            then Success((token, claims["organization_id"].s))
            else Failure(Cause("organization_id not found in token"))
  }

  /** A token of three segments is accepted exactly when its middle segment
      decodes to claims with a string `organization_id`, whatever the other
      two segments hold. */
  lemma TokenSegments(header: string, payload: string, signature: string,
                         decodeSegment: string -> Result<string, GoError>,
                         parseClaims: string -> Result<map<string, Value>, GoError>)
    requires '.' !in header && '.' !in payload && '.' !in signature
    ensures var token := header + "." + payload + "." + signature;
            GetBearerToken(Issued(token), decodeSegment, parseClaims).Success?
            <==> (&& decodeSegment(payload).Success?
                  && parseClaims(decodeSegment(payload).value).Success?
                  && var claims := parseClaims(decodeSegment(payload).value).value;
                  && "organization_id" in claims && claims["organization_id"].Str?)
  {
    ThreeSegments(header, payload, signature);
  }

  /** A token assembled from three dot-free segments splits back into them. */
  lemma ThreeSegments(header: string, payload: string, signature: string)
    requires '.' !in header && '.' !in payload && '.' !in signature
    ensures Split(header + "." + payload + "." + signature, '.') == [header, payload, signature]
  {
    var pieces := [header, payload, signature];
    assert Join(pieces[2..], ".") == signature;
    assert Join(pieces[1..], ".") == payload + "." + signature;
    assert Join(pieces, ".") == header + "." + payload + "." + signature;
    SplitJoin(pieces, '.');
  }

  // ---------------------------------------------------------------------
  // Recording the artifact.

  /** The custom transport of `addArtifact`, holding the bearer token and
      the organization. */
  datatype CustomTransport = CustomTransport(token: string, organization: string)

  /** `customTransport.RoundTrip`: sets `Authorization` to the bearer token
      and `X-Organization` to the organization, replacing earlier values;
      every other header is left alone. */
  function RoundTripHeaders(t: CustomTransport, h: Headers): (r: Headers)
    ensures r.Keys == h.Keys + {"Authorization", "X-Organization"}
    ensures r["Authorization"] == ["Bearer " + t.token]
    ensures r["X-Organization"] == [t.organization]
    ensures forall k :: k in h && k != "Authorization" && k != "X-Organization" ==> r[k] == h[k]
  {
    CanonicalNames();
    Set(Set(h, "Authorization", "Bearer " + t.token), "x-organization", t.organization)
  }

  /** The input `addArtifact` sends: a registry artifact with no tags. */
  function ArtifactInput(artifactId: string, version: string, url: string): (r: AddArtifactInput)
    ensures r.artifactType == "registry" && r.tags == []
    ensures r.artifactId == artifactId && r.version == version && r.registry.url == url
  {
    AddArtifactInput("registry", artifactId, version, [], RegistryArtifactInput(url))
  }

  /** The GraphQL client `addArtifact` builds: the API URL, sending through
      the custom transport. */
  function ArtifactClient(token: string, organization: string): (c: GraphQLClient.Client)
    ensures !c.debug && c.url == ApiURL && c.requestModifier.None?
    ensures c.httpClient.CustomClient?
    ensures forall h :: c.httpClient.roundTrip(h) == RoundTripHeaders(CustomTransport(token, organization), h)
  {
    GraphQLClient.NewClient(ApiURL, Some(GraphQLClient.CustomClient(
      (h: Headers) => RoundTripHeaders(CustomTransport(token, organization), h))))
  }

  /** The mutation request goes out as JSON with the bearer token and the
      organization. */
  lemma ArtifactRequestHeaders(token: string, organization: string)
    ensures var h := GraphQLClient.WireHeaders(ArtifactClient(token, organization));
            && "Authorization" in h && "X-Organization" in h && "Content-Type" in h
            && h["Authorization"] == ["Bearer " + token]
            && h["X-Organization"] == [organization]
            && h["Content-Type"] == ["application/json"]
  {
    CanonicalNames();
  }

  /** What the GraphQL mutation's outcome is made of (see the client model). */
  datatype MutationOutcome = MutationOutcome(
    construct: Result<GraphQLClient.Built, GoError>,
    encode: GraphQLClient.RequestPayload<map<string, AddArtifactInput>> -> Result<string, GoError>,
    exchange: GraphQLClient.Exchange,
    typedDecode: Option<GoError>,
    extensionsDecode: Option<GoError>)

  /** `addArtifact`: runs the mutation with the input under `input` and
      prefixes any error with "failed to add artifact: ". The mutation goes
      out only when the request was built and dispatched; a failure before
      that (building the mutation, encoding, `NewRequest`) sends nothing. */
  function AddArtifact(token: string, organization: string, artifactId: string, version: string,
                       url: string, m: MutationOutcome): (r: (seq<Effect>, Option<string>))
    ensures |r.0| <= 1
    ensures |r.0| == 1 <==> GraphQLClient.Dispatched(GraphQLClient.MutationOperation, m.construct, m.construct,
                                                      map["input" := ArtifactInput(artifactId, version, url)],
                                                      m.encode, m.exchange)
    ensures |r.0| == 1 ==> r.0[0].Mutate? && "input" in r.0[0].variables
                           && r.0[0].variables["input"] == ArtifactInput(artifactId, version, url)
                           && r.0[0].headers == GraphQLClient.WireHeaders(ArtifactClient(token, organization))
    ensures r.1.None? ==> |r.0| == 1
    ensures r.1.Some? ==> |r.1.value| >= 24 && r.1.value[..24] == "failed to add artifact: "
    ensures var err := GraphQLClient.Do(ArtifactClient(token, organization), GraphQLClient.MutationOperation,
                                        m.construct, m.construct, map["input" := ArtifactInput(artifactId, version, url)],
                                        m.encode, m.exchange, m.typedDecode, m.extensionsDecode);
            && (r.1.Some? <==> err.Some?)
            && (r.1.Some? ==> r.1.value == "failed to add artifact: " + GraphQLClient.CallErrorText(err.value))
  {
    var client := ArtifactClient(token, organization);
    var variables := map["input" := ArtifactInput(artifactId, version, url)];
    var err := GraphQLClient.Do(client, GraphQLClient.MutationOperation, m.construct, m.construct,
                                variables, m.encode, m.exchange, m.typedDecode, m.extensionsDecode);
    var sent := GraphQLClient.Dispatched(GraphQLClient.MutationOperation, m.construct, m.construct,
                                         variables, m.encode, m.exchange);
    GraphQLClient.DoFailsUndispatched(client, GraphQLClient.MutationOperation, m.construct, m.construct,
                                      variables, m.encode, m.exchange, m.typedDecode, m.extensionsDecode);
    var effects := if sent then [Mutate(GraphQLClient.WireHeaders(client), variables)] else [];
    (effects, if err.Some? then Some("failed to add artifact: " + GraphQLClient.CallErrorText(err.value)) else None)
  }

  // ---------------------------------------------------------------------
  // The command line and `main`.

  datatype Inputs = Inputs(
    clientId: string, secret: string, imageName: string, imageTag: string,
    artifactId: string, dockerfilePath: string, dockerfile: string)

  /** The outcome of reading the command line: the usage message, an index
      out of range (a Go panic), or the seven values. */
  datatype ArgsOutcome = Usage(message: string) | OutOfRange(index: nat, length: nat) | Parsed(inputs: Inputs)

  function UsageMessage(program: string): string
  {
    "Usage: " + program
    + " <clientId> <secret> <imageName> <imageTag> <artifactId> <dockerfilePath> <dockerfile>"
  }

  /** Reads `os.Args[1]` to `os.Args[7]` in order; the first index past the
      end panics. */
  function ReadArgs(args: seq<string>): (r: ArgsOutcome)
    requires |args| >= 1
    ensures r.Parsed? <==> |args| >= 8
    ensures |args| < 8 ==> r == OutOfRange(|args|, |args|)
    ensures r.Parsed? ==>
              && r.inputs.clientId == args[1] && r.inputs.secret == args[2]
              && r.inputs.imageName == args[3] && r.inputs.imageTag == args[4]
              && r.inputs.artifactId == args[5] && r.inputs.dockerfilePath == args[6]
              && r.inputs.dockerfile == args[7]
  {
    if |args| < 8 then OutOfRange(|args|, |args|)
    else Parsed(Inputs(args[1], args[2], args[3], args[4], args[5], args[6], args[7]))
  }

  /** The command-line check of `main` as written: it admits exactly seven
      entries (the program name and six values) and then reads an eighth. */
  function ParseArgsAsWritten(args: seq<string>): (r: ArgsOutcome)
    requires |args| >= 1
    ensures |args| != 7 ==> r == Usage(UsageMessage(args[0]))
    ensures |args| == 7 ==> r == OutOfRange(7, 7)
  {
    if |args| != 7 then Usage(UsageMessage(args[0])) else ReadArgs(args)
  }

  /** As written, no command line gets past the check: the one length the
      guard admits is one short of the index read. */
  lemma ArgsAsWrittenNeverParse(args: seq<string>)
    requires |args| >= 1
    ensures !ParseArgsAsWritten(args).Parsed?
  {
  }

  /** A concrete command line of seven entries panics on `os.Args[7]`. */
  lemma ArgsAsWrittenCounterexample()
    ensures ParseArgsAsWritten(["action", "id", "secret", "image", "v1", "artifact", "Dockerfile"])
            == OutOfRange(7, 7)
  {
  }

  /** The command-line check as evidently intended: the program name plus
      the seven values of the usage message. */
  function ParseArgs(args: seq<string>): (r: ArgsOutcome)
    requires |args| >= 1
    ensures r.Parsed? <==> |args| == 8
    ensures !r.Parsed? ==> r == Usage(UsageMessage(args[0]))
    ensures r.Parsed? ==> r.inputs == Inputs(args[1], args[2], args[3], args[4], args[5], args[6], args[7])
  {
    if |args| != 8 then Usage(UsageMessage(args[0])) else ReadArgs(args)
  }

  /** Everything the steps of `main` depend on besides the command line. */
  datatype Environment = Environment(
    token: TokenExchange,
    decodeSegment: string -> Result<string, GoError>,
    parseClaims: string -> Result<map<string, Value>, GoError>,
    homeError: Option<GoError>,
    mkdirError: Option<GoError>,
    configWriteError: Option<GoError>,
    dockerfileWriteError: Option<GoError>,
    buildError: Option<GoError>,
    pushOutput: string,
    pushError: Option<GoError>,
    setOutputError: Option<GoError>,
    mutation: MutationOutcome)

  /** How the run ends: normally, or through `log.Fatalf` with a message. */
  datatype Exit = Completed | Fatal(message: string)

  datatype Run = Run(effects: seq<Effect>, exit: Exit)

  /** The effects of one step put in front of the rest of the run. */
  function Then(effects: seq<Effect>, rest: Run): (r: Run)
    ensures r.exit == rest.exit && |r.effects| == |effects| + |rest.effects|
    ensures r.effects[..|effects|] == effects
    ensures r.effects[|effects|..] == rest.effects
  {
    Run(effects + rest.effects, rest.exit)
  }

  /** The image build `main` runs for these inputs. */
  function BuildCommand(inputs: Inputs): Effect
  {
    Exec(["docker", "build", "-f", if inputs.dockerfile != "" then "./Dockerfile" else inputs.dockerfilePath,
          "-t", ParseLocation(inputs.imageName, inputs.imageTag), "."])
  }

  /** The image push `main` runs for these inputs. */
  function PushCommand(inputs: Inputs): Effect
  {
    Exec(["docker", "push", ParseLocation(inputs.imageName, inputs.imageTag)])
  }

  /** The output `main` publishes for these inputs. */
  function PublishCommand(inputs: Inputs): Effect
  {
    Exec(SetOutputArgv("location", ParseLocation(inputs.imageName, inputs.imageTag)))
  }

  /** The effect records the built image as an artifact whose version is
      the tag. */
  predicate Records(inputs: Inputs, e: Effect)
  {
    && e.Mutate? && "input" in e.variables
    && e.variables["input"] == ArtifactInput(inputs.artifactId, inputs.imageTag,
                                             ParseLocation(inputs.imageName, inputs.imageTag))
  }

  /** The effects end with building, pushing and publishing the image and
      recording it, in that order. */
  predicate Delivered(inputs: Inputs, effects: seq<Effect>)
  {
    && |effects| >= 4
    && effects[|effects| - 4] == BuildCommand(inputs)
    && effects[|effects| - 3] == PushCommand(inputs)
    && effects[|effects| - 2] == PublishCommand(inputs)
    && Records(inputs, effects[|effects| - 1])
  }

  /** The artifact mutation for these inputs reports no error. */
  predicate ArtifactAdded(inputs: Inputs, token: string, organization: string, env: Environment)
  {
    AddArtifact(token, organization, inputs.artifactId, inputs.imageTag,
                ParseLocation(inputs.imageName, inputs.imageTag), env.mutation).1.None?
  }

  /** Every step after the credentials write succeeds: the build (and the
      inline Dockerfile write), the push, the output and the artifact. */
  predicate StepsSucceed(inputs: Inputs, token: string, organization: string, env: Environment)
  {
    && RunDockerBuild(inputs.dockerfilePath, inputs.dockerfile, inputs.imageName, inputs.imageTag,
                      env.dockerfileWriteError, env.buildError).1.None?
    && env.pushError.None? && env.setOutputError.None?
    && ArtifactAdded(inputs, token, organization, env)
  }

  /** Recording the artifact: the last step of `main`. */
  function RecordStep(inputs: Inputs, token: string, organization: string, env: Environment): (r: Run)
    ensures |r.effects| <= 1
    ensures |r.effects| == 1 ==> Records(inputs, r.effects[0])
    ensures r.exit.Completed? ==> |r.effects| == 1
    ensures r.exit.Completed? <==> ArtifactAdded(inputs, token, organization, env)
    ensures r.exit.Fatal? ==>
              r.exit.message == "Failed to add artifact: "
                                + AddArtifact(token, organization, inputs.artifactId, inputs.imageTag,
                                              ParseLocation(inputs.imageName, inputs.imageTag), env.mutation).1.value
  {
    var location := ParseLocation(inputs.imageName, inputs.imageTag);
    var (mutation, artifactError) :=
      AddArtifact(token, organization, inputs.artifactId, inputs.imageTag, location, env.mutation);
    if artifactError.Some? then Run(mutation, Fatal("Failed to add artifact: " + artifactError.value))
    else Run(mutation, Completed)
  }

  /** Publishing the location as the action's output, then recording. */
  function PublishStep(inputs: Inputs, token: string, organization: string, env: Environment): (r: Run)
    ensures |r.effects| >= 1 && r.effects[0] == PublishCommand(inputs)
    ensures env.setOutputError.Some? ==> r.effects == [PublishCommand(inputs)] && r.exit.Fatal?
    ensures r.exit.Completed? ==> |r.effects| == 2 && Records(inputs, r.effects[1])
    ensures r.exit.Completed? <==> env.setOutputError.None? && ArtifactAdded(inputs, token, organization, env)
  {
    var published := [Exec(SetOutputArgv("location", ParseLocation(inputs.imageName, inputs.imageTag)))];
    if env.setOutputError.Some? then
      Run(published, Fatal("Failed to set output: " + ErrorText(env.setOutputError.value)))
    else Then(published, RecordStep(inputs, token, organization, env))
  }

  /** Pushing the image; a failure stops with the push output. */
  function PushStep(inputs: Inputs, token: string, organization: string, env: Environment): (r: Run)
    ensures |r.effects| >= 1 && r.effects[0] == PushCommand(inputs)
    ensures env.pushError.Some? ==>
              r == Run([PushCommand(inputs)], Fatal("Failed to push Docker image: " + ErrorText(env.pushError.value)
                                                    + "\nOutput: " + env.pushOutput))
    ensures r.exit.Completed? ==>
              && |r.effects| == 3 && r.effects[1] == PublishCommand(inputs) && Records(inputs, r.effects[2])
    ensures r.exit.Completed? <==>
              env.pushError.None? && env.setOutputError.None? && ArtifactAdded(inputs, token, organization, env)
  {
    var (pushed, output, pushError) := RunDockerPush(inputs.imageName, inputs.imageTag, env.pushOutput, env.pushError);
    if pushError.Some? then
      Run(pushed, Fatal("Failed to push Docker image: " + ErrorText(pushError.value) + "\nOutput: " + output))
    else Then(pushed, PublishStep(inputs, token, organization, env))
  }

  /** Building the image; nothing is pushed unless the build succeeded. */
  function BuildStep(inputs: Inputs, token: string, organization: string, env: Environment): (r: Run)
    ensures RunDockerBuild(inputs.dockerfilePath, inputs.dockerfile, inputs.imageName, inputs.imageTag,
                           env.dockerfileWriteError, env.buildError).1.Some? ==>
              PushCommand(inputs) !in r.effects && r.exit.Fatal?
    ensures r.exit.Completed? ==> Delivered(inputs, r.effects)
    ensures r.exit.Completed? <==> StepsSucceed(inputs, token, organization, env)
  {
    var (built, buildError) := RunDockerBuild(inputs.dockerfilePath, inputs.dockerfile, inputs.imageName,
                                              inputs.imageTag, env.dockerfileWriteError, env.buildError);
    BuildEffects(inputs, env.dockerfileWriteError, env.buildError);
    if buildError.Some? then
      Run(built, Fatal("Failed to build Docker image: " + ErrorText(buildError.value)))
    else
      var rest := PushStep(inputs, token, organization, env);
      DeliveredAfterBuild(inputs, built, rest);
      Then(built, rest)
  }

  /** A failed build never pushes; a successful one ends with the build
      command for these inputs. */
  lemma BuildEffects(inputs: Inputs, writeError: Option<GoError>, runError: Option<GoError>)
    ensures var (built, buildError) := RunDockerBuild(inputs.dockerfilePath, inputs.dockerfile, inputs.imageName,
                                                      inputs.imageTag, writeError, runError);
            && (buildError.Some? ==> PushCommand(inputs) !in built)
            && (buildError.None? ==> |built| >= 1 && built[|built| - 1] == BuildCommand(inputs))
  {
    var (built, buildError) := RunDockerBuild(inputs.dockerfilePath, inputs.dockerfile, inputs.imageName,
                                              inputs.imageTag, writeError, runError);
    assert forall i :: 0 <= i < |built| ==> built[i] != PushCommand(inputs);
  }

  /** The build command followed by a completed push, publish and record
      delivers the image. */
  lemma DeliveredAfterBuild(inputs: Inputs, built: seq<Effect>, rest: Run)
    requires |built| >= 1 && built[|built| - 1] == BuildCommand(inputs)
    requires rest.exit.Completed? ==>
               && |rest.effects| == 3 && rest.effects[0] == PushCommand(inputs)
               && rest.effects[1] == PublishCommand(inputs) && Records(inputs, rest.effects[2])
    ensures Then(built, rest).exit.Completed? ==> Delivered(inputs, Then(built, rest).effects)
  {
    var r := Then(built, rest);
    if r.exit.Completed? {
      assert r.effects[|r.effects| - 4] == built[|built| - 1];
      assert r.effects[|r.effects| - 3..] == rest.effects;
    }
  }

  /** The Docker credentials update succeeds. */
  predicate ConfigUpdated(env: Environment)
  {
    env.homeError.None? && env.mkdirError.None? && env.configWriteError.None?
  }

  /** The steps of `main` once the command line is read and the bearer
      token request has its outcome `auth`: update the Docker credentials,
      then build, push, publish and record. */
  function RunAction(inputs: Inputs, auth: Result<(string, string), GoError>, env: Environment): (r: Run)
    ensures auth.Failure? ==> r == Run([], Fatal("Failed to get bearer token: " + ErrorText(auth.error)))
    ensures auth.Success? && env.homeError.Some? ==> r.effects == [] && r.exit.Fatal?
    ensures auth.Success? && env.homeError.None? ==> |r.effects| >= 1 && r.effects[0] == CreateConfigDir
    ensures auth.Success? && env.homeError.None? && env.mkdirError.Some? ==>
              r.effects == [CreateConfigDir] && r.exit.Fatal?
    ensures auth.Success? && env.homeError.None? && env.mkdirError.None? ==>
              |r.effects| >= 2 && r.effects[1] == WriteDockerConfig(DockerConfigContents(auth.value.0))
    ensures !ConfigUpdated(env) ==> |r.effects| <= 2 && r.exit.Fatal?
    ensures RunDockerBuild(inputs.dockerfilePath, inputs.dockerfile, inputs.imageName, inputs.imageTag,
                           env.dockerfileWriteError, env.buildError).1.Some? ==>
              PushCommand(inputs) !in r.effects && r.exit.Fatal?
    ensures r.exit.Completed? ==> auth.Success? && Delivered(inputs, r.effects)
    ensures r.exit.Completed? <==>
              auth.Success? && ConfigUpdated(env) && StepsSucceed(inputs, auth.value.0, auth.value.1, env)
  {
    match auth
    case Failure(err) => Run([], Fatal("Failed to get bearer token: " + ErrorText(err)))
    case Success((token, organization)) =>
      var (config, configError) := UpdateDockerConfig(token, env.homeError, env.mkdirError, env.configWriteError);
      if configError.Some? then
        Run(config, Fatal("Failed to update Docker config: " + ErrorText(configError.value)))
      else
        var rest := BuildStep(inputs, token, organization, env);
        DeliveredAfterConfig(inputs, config, rest);
        Then(config, rest)
  }

  /** Effects before a delivering run keep it delivering. */
  lemma DeliveredAfterConfig(inputs: Inputs, config: seq<Effect>, rest: Run)
    requires rest.exit.Completed? ==> Delivered(inputs, rest.effects)
    ensures Then(config, rest).exit.Completed? ==> Delivered(inputs, Then(config, rest).effects)
  {
    var r := Then(config, rest);
    if r.exit.Completed? {
      assert r.effects[|r.effects| - 4..] == rest.effects[|rest.effects| - 4..];
    }
  }

  /** `main`: the corrected command-line check, the bearer token, then the
      steps. A command line of any other length stops with the usage
      message before anything is attempted. */
  function Start(args: seq<string>, env: Environment): (r: Run)
    requires |args| >= 1
    ensures |args| != 8 ==> r == Run([], Fatal(UsageMessage(args[0])))
    ensures |r.effects| > 0 ==> |args| == 8
    ensures |args| == 8 ==>
              r == RunAction(Inputs(args[1], args[2], args[3], args[4], args[5], args[6], args[7]),
                             GetBearerToken(env.token, env.decodeSegment, env.parseClaims), env)
  {
    match ParseArgs(args)
    case Parsed(inputs) => RunAction(inputs, GetBearerToken(env.token, env.decodeSegment, env.parseClaims), env)
    case Usage(message) => Run([], Fatal(message))
    case OutOfRange(_, _) => Run([], Fatal(UsageMessage(args[0])))
  }
}

=== FILE: basics.dfy ===
/** Failure-carrying wrappers shared by every module of the model.
    `Option` stands for a Go value that may be nil; `Result` for a Go
    `(value, error)` pair where exactly one side is meaningful. */
module Basics {

  datatype Option<+T> = None | Some(value: T)

  datatype Result<+T, +E> = Success(value: T) | Failure(error: E)
}

=== FILE: graphql_client.dfy ===
/** The GraphQL client's request pipeline
    (vendor/github.com/hasura/go-graphql-client/graphql.go) with the network,
    JSON, gzip and reflection calls replaced by their outcomes: which errors
    a call reports, how many, in which order, when data survives next to
    errors, and what debug mode records. */
module GraphQLClient {
  import opened Basics
  import opened Strings
  import opened Headers
  import opened GraphQLErrors

  // ---------------------------------------------------------------------
  // Client configuration.

  /** A request modifier sees the outgoing request (here: its headers)
      just before it is sent. */
  type RequestModifier = Headers -> Headers

  /** The HTTP client the GraphQL client sends through: Go's default
      client, or a client whose transport rewrites the outgoing headers
      before the request goes on the wire. */
  datatype Doer = DefaultClient | CustomClient(roundTrip: Headers -> Headers)

  datatype Client = Client(
    url: string,
    httpClient: Doer,
    requestModifier: Option<RequestModifier>,
    debug: bool)

  /** `NewClient(url, httpClient)`: a nil HTTP client means the default one. */
  function NewClient(url: string, httpClient: Option<Doer>): (c: Client)
    ensures c.url == url
    ensures httpClient.Some? ==> c.httpClient == httpClient.value
    ensures httpClient.None? ==> c.httpClient == DefaultClient
    ensures c.requestModifier.None? && !c.debug
  {
    Client(url, if httpClient.Some? then httpClient.value else DefaultClient, None, false)
  }

  /** `Client.WithRequestModifier(f)`: a new client with the same URL and
      HTTP client and the given modifier. Debug mode is not carried over. */
  function WithRequestModifier(c: Client, f: RequestModifier): (d: Client)
    ensures d.url == c.url && d.httpClient == c.httpClient
    ensures d.requestModifier == Some(f)
    ensures !d.debug
  {
    Client(c.url, c.httpClient, Some(f), false)
  }

  /** `Client.WithDebug(debug)`: a new client that differs from `c` only in
      its debug flag. */
  function WithDebug(c: Client, debug: bool): (d: Client)
    ensures d.url == c.url && d.httpClient == c.httpClient
    ensures d.requestModifier == c.requestModifier
    ensures d.debug == debug
  {
    Client(c.url, c.httpClient, c.requestModifier, debug)
  }

  /** The two derivations do not commute: adding a modifier after enabling
      debug mode switches debug mode off again, while the other order keeps
      both. Either way the base client's URL and HTTP client are shared. */
  lemma DerivationOrder(c: Client, f: RequestModifier)
    ensures !WithRequestModifier(WithDebug(c, true), f).debug
    ensures WithDebug(WithRequestModifier(c, f), true).debug
    ensures WithDebug(WithRequestModifier(c, f), true).requestModifier == Some(f)
    ensures WithRequestModifier(WithDebug(c, true), f).url == c.url
  {
  }

  // ---------------------------------------------------------------------
  // Options and the request payload.

  /** What option construction yields from the options a caller passes
      (`OperationName`, `BindExtensions`): the operation name and whether a
      target for the response's `extensions` is bound. */
  datatype OptionsOutput = OptionsOutput(operationName: string, extensionsBound: bool)

  /** `GraphQLRequestPayload`: what is JSON-encoded into the request body. */
  datatype RequestPayload<V> = RequestPayload(query: string, variables: V, operationName: string)

  /** The payload `request` encodes: the operation name comes from the
      options when there are any. */
  function Payload<V>(query: string, variables: V, options: Option<OptionsOutput>): (p: RequestPayload<V>)
    ensures p.query == query && p.variables == variables
    ensures options.None? ==> p.operationName == ""
    ensures options.Some? ==> p.operationName == options.value.operationName
  {
    RequestPayload(query, variables, if options.Some? then options.value.operationName else "")
  }

  // ---------------------------------------------------------------------
  // What the transport and the decoders deliver.

  /** The JSON response envelope: raw `data`, raw `extensions` (each None
      when absent or null) and the list of errors. */
  datatype Envelope = Envelope(data: Option<string>, extensions: Option<string>, errors: Errors)

  /** What `gzip.NewReader` over the body gives: a failure, or a reader
      whose output the JSON decoder turns into `decoded`. */
  datatype GzipReader = GzipFailed(err: GoError) | Inflated(decoded: Result<Envelope, GoError>)

  /** The HTTP response as far as the client looks at it. The client reads
      the raw body only after the gzip reader, if any, has been created, and
      `gzip.NewReader` buffers the start of the stream; so `body` is what
      reading the raw body to the end yields from that point on (all of it
      for a response not declared gzip-encoded, what remains of it for one
      that is) and `bodyError` the error that reading ends with. `decoded` is
      what the JSON decoder makes of that same remainder, and `gzip` what it
      makes of the decompressed stream. */
  datatype Response = Response(
    status: int,
    headers: Headers,
    body: string,
    bodyError: Option<GoError>,
    decoded: Result<Envelope, GoError>,
    gzip: GzipReader)

  /** The outcome of building and sending the HTTP request: the error
      `http.NewRequestWithContext` reports, if any, then what `Doer.Do`
      returns. */
  datatype Exchange = Exchange(constructError: Option<GoError>, outcome: Result<Response, GoError>)

  /** What `request` hands back: raw data and raw extensions ("" for nil),
      the response headers (None for a nil response), the debug copy of the
      response body still unread (None for a nil reader), and the errors. */
  datatype Reply = Reply(
    data: string,
    extensions: string,
    response: Option<Headers>,
    responseBuffer: Option<string>,
    errors: Errors)

  /** A reply that reports one error and nothing else. */
  function Failed(e: Error): Reply
  {
    Reply("", "", None, None, [e])
  }

  /** A raw JSON part is kept only when present and non-empty. */
  function NonEmpty(raw: Option<string>): (r: string)
    ensures raw.Some? && |raw.value| > 0 ==> r == raw.value
    ensures raw.None? || |raw.value| == 0 ==> r == ""
  {
    if raw.Some? && |raw.value| > 0 then raw.value else ""
  }

  /** The headers the request goes out with: the JSON content type, then
      whatever the request modifier does. */
  function SentHeaders(c: Client): (r: Headers)
    ensures c.requestModifier.None? ==> r.Keys == {"Content-Type"} && r["Content-Type"] == ["application/json"]
    ensures c.requestModifier.None? ==> Get(r, "content-type") == "application/json"
    ensures c.requestModifier.Some? ==> r == c.requestModifier.value(map["Content-Type" := ["application/json"]])
  {
    ContentTypeName();
    LowerContentTypeName();
    var h := Add(map[], "Content-Type", "application/json");
    if c.requestModifier.Some? then c.requestModifier.value(h) else h
  }

  /** The headers that reach the network: the HTTP client's transport
      sees the request after the request modifier. A transport may rewrite
      the request's headers in place, so this is also what the debug
      captures made after `Doer.Do` record. */
  function WireHeaders(c: Client): (r: Headers)
    ensures c.httpClient.DefaultClient? ==> r == SentHeaders(c)
    ensures c.httpClient.CustomClient? && c.requestModifier.None?
            ==> r == c.httpClient.roundTrip(map["Content-Type" := ["application/json"]])
    ensures c.httpClient.CustomClient? && c.requestModifier.Some?
            ==> r == c.httpClient.roundTrip(c.requestModifier.value(map["Content-Type" := ["application/json"]]))
  {
    match c.httpClient
    case DefaultClient => SentHeaders(c)
    case CustomClient(roundTrip) => roundTrip(SentHeaders(c))
  }

  /** The debug guard on the first envelope error: it has no extension map,
      or no non-null value under the top-level key `request`. */
  predicate NeedsCapture(e: Error)
  {
    e.extensions.None? || "request" !in e.extensions.value || e.extensions.value["request"] == Null
  }

  /** Whether the response is declared gzip-encoded. */
  predicate IsGzip(resp: Response)
  {
    Get(resp.headers, "Content-Encoding") == "gzip"
  }

  /** The envelope the JSON decoder produces. Debug mode decodes the copy
      it read from the raw body, so gzip decompression applies only outside
      debug mode. */
  function DecodedEnvelope(c: Client, resp: Response): Result<Envelope, GoError>
    requires !(IsGzip(resp) && resp.gzip.GzipFailed?)
  {
    if IsGzip(resp) && !c.debug then resp.gzip.decoded else resp.decoded
  }

  /** The calls of the response stage in which the source does not panic:
      in debug mode the first envelope error's `internal` extension is read
      with an unchecked type assertion before the request is recorded. */
  predicate ReceiveAdmissible(c: Client, resp: Response)
  {
    c.debug && resp.status == 200 && !(IsGzip(resp) && resp.gzip.GzipFailed?)
    && resp.bodyError.None? && resp.decoded.Success?
    && |resp.decoded.value.errors| > 0 && NeedsCapture(resp.decoded.value.errors[0])
    ==> InternalIsMap(resp.decoded.value.errors[0])
  }

  /** The calls of `request` in which the source does not panic, given
      whether the payload could be encoded. Besides the above, debug mode
      hands the nil request of a failed `NewRequestWithContext` to
      `withRequest`, which dereferences it. */
  predicate Admissible(c: Client, encoded: bool, ex: Exchange)
  {
    c.debug && encoded ==>
      && ex.constructError.None?
      && (ex.outcome.Success? ==> ReceiveAdmissible(c, ex.outcome.value))
  }

  /** In debug mode, record the request, as it stands after `Doer.Do`, on
      an error. */
  function CaptureRequest(c: Client, e: Error, body: string): (r: Error)
    requires InternalIsMap(e)
    ensures Code(r) == Code(e) && r.err == e.err && r.message == e.message
    ensures !c.debug ==> r == e
    ensures c.debug ==> r.extensions.Some? && "internal" in r.extensions.value
                        && r.extensions.value["internal"].Object?
                        && "request" in r.extensions.value["internal"].fields
                        && r.extensions.value["internal"].fields["request"]
                           == RequestCapture(WireHeaders(c), body)
  {
    if c.debug then WithRequest(e, WireHeaders(c), Success(body)) else e
  }

  /** The first envelope error in debug mode, with the request and the
      response recorded under `internal`. */
  predicate CapturedBoth(e: Error, request: Value, responseHeaders: Headers, responseBody: string)
  {
    && e.extensions.Some? && "internal" in e.extensions.value
    && e.extensions.value["internal"].Object?
    && var internal := e.extensions.value["internal"].fields;
    && "request" in internal && internal["request"] == request
    && "response" in internal
    && internal["response"] == Object(map["headers" := HeaderMap(responseHeaders), "body" := Str(responseBody)])
  }

  /** The guard reads the top-level key `request`, but the captures are
      written under `internal`: an error the guard admitted is admitted
      again after both captures, so a second pass would overwrite them. */
  lemma CaptureKeepsGuardOpen(e: Error, requestHeaders: Headers, body: Result<string, GoError>,
                              responseHeaders: Headers, responseBody: Option<Result<string, GoError>>)
    requires InternalIsMap(e) && NeedsCapture(e)
    ensures NeedsCapture(WithRequest(e, requestHeaders, body))
    ensures NeedsCapture(WithResponse(WithRequest(e, requestHeaders, body), responseHeaders, responseBody))
  {
    var withRequest := WithRequest(e, requestHeaders, body);
    assert e.extensions.Some? && "request" in e.extensions.value
           ==> withRequest.extensions.value["request"] == e.extensions.value["request"];
  }

  /** The last stage of `request`, once the JSON decoder has produced an
      envelope: data and extensions are returned whenever they are present
      and non-empty, whether or not there are errors; the errors are the
      envelope's, and only the first may be enriched, in debug mode only. */
  function FromEnvelope(c: Client, body: string, resp: Response, out: Envelope): (r: Reply)
    requires c.debug && |out.errors| > 0 && NeedsCapture(out.errors[0]) ==> InternalIsMap(out.errors[0])
    ensures r.response == Some(resp.headers)
    ensures r.data == NonEmpty(out.data) && r.extensions == NonEmpty(out.extensions)
    ensures |r.errors| == |out.errors|
    ensures |out.errors| > 0 ==> r.errors[1..] == out.errors[1..]
    ensures |out.errors| > 0 ==> Code(r.errors[0]) == Code(out.errors[0])
                                 && r.errors[0].message == out.errors[0].message
    ensures !c.debug ==> r.errors == out.errors
    ensures |out.errors| > 0 && !NeedsCapture(out.errors[0]) ==> r.errors == out.errors
    ensures c.debug && |out.errors| > 0 && NeedsCapture(out.errors[0]) ==>
              CapturedBoth(r.errors[0], RequestCapture(WireHeaders(c), body), resp.headers, resp.body)
    ensures c.debug <==> r.responseBuffer.Some?
  {
    var data := NonEmpty(out.data);
    var extensions := NonEmpty(out.extensions);
    if |out.errors| > 0 && c.debug && NeedsCapture(out.errors[0]) then
      // Recording the response reads the debug copy of the body to its end.
      var first := WithResponse(WithRequest(out.errors[0], WireHeaders(c), Success(body)),
                                resp.headers, Some(Success(resp.body)));
      Reply(data, extensions, Some(resp.headers), Some(""), [first] + out.errors[1..])
    else
      Reply(data, extensions, Some(resp.headers), if c.debug then Some(resp.body) else None, out.errors)
  }

  /** The response stage of `request`: the gzip reader is created before
      the status is looked at, so its failure wins over a bad status; a
      status other than 200 ends the call without decoding anything. */
  function Receive(c: Client, body: string, resp: Response): (r: Reply)
    requires ReceiveAdmissible(c, resp)
    ensures IsGzip(resp) && resp.gzip.GzipFailed? ==>
              r == Failed(NewError(ErrJsonDecode, Wrapped("problem trying to create gzip reader", resp.gzip.err)))
    ensures !(IsGzip(resp) && resp.gzip.GzipFailed?) && resp.status != 200 ==>
              && r.response.None? && r.data == "" && r.extensions == ""
              && |r.errors| == 1
              && Code(r.errors[0]) == Some(ErrRequestError)
              && r.errors[0].err == Some(Network(resp.status, resp.body))
    ensures !(IsGzip(resp) && resp.gzip.GzipFailed?) && resp.status == 200
            && c.debug && resp.bodyError.Some? ==>
              r == Failed(NewError(ErrJsonDecode, resp.bodyError.value))
    ensures !(IsGzip(resp) && resp.gzip.GzipFailed?) && resp.status == 200
            && !(c.debug && resp.bodyError.Some?) ==>
              match DecodedEnvelope(c, resp)
              case Failure(err) =>
                && r.response.None? && r.data == "" && r.extensions == ""
                && |r.errors| == 1
                && Code(r.errors[0]) == Some(ErrJsonDecode)
                && r.errors[0].err == Some(err)
              case Success(out) => r == FromEnvelope(c, body, resp, out)
  {
    if IsGzip(resp) && resp.gzip.GzipFailed? then
      Failed(NewError(ErrJsonDecode, Wrapped("problem trying to create gzip reader", resp.gzip.err)))
    else if resp.status != 200 then
      Failed(CaptureRequest(c, NewError(ErrRequestError, Network(resp.status, resp.body)), body))
    else if c.debug && resp.bodyError.Some? then
      Failed(NewError(ErrJsonDecode, resp.bodyError.value))
    else
      match DecodedEnvelope(c, resp)
      case Failure(err) =>
        var e := NewError(ErrJsonDecode, err);
        Failed(if c.debug
               then WithResponse(WithRequest(e, WireHeaders(c), Success(body)), resp.headers, Some(Success(resp.body)))
               else e)
      case Success(out) => FromEnvelope(c, body, resp, out)
  }

  /** The transport stage of `request`: building the HTTP request, then
      `Doer.Do`. A failure of either is a single `request_error`. */
  function Send(c: Client, body: string, ex: Exchange): (r: Reply)
    requires c.debug ==> ex.constructError.None?
    requires ex.outcome.Success? ==> ReceiveAdmissible(c, ex.outcome.value)
    ensures ex.constructError.Some? ==>
              r == Failed(NewError(ErrRequestError, Wrapped("problem constructing request", ex.constructError.value)))
    ensures ex.constructError.None? && ex.outcome.Failure? ==>
              && r.response.None? && r.data == "" && r.extensions == ""
              && |r.errors| == 1
              && Code(r.errors[0]) == Some(ErrRequestError)
              && r.errors[0].err == Some(ex.outcome.error)
              && r.errors[0].message == ErrorText(ex.outcome.error)
    ensures ex.constructError.None? && ex.outcome.Success? ==> r == Receive(c, body, ex.outcome.value)
  {
    if ex.constructError.Some? then
      Failed(NewError(ErrRequestError, Wrapped("problem constructing request", ex.constructError.value)))
    else
      match ex.outcome
      case Failure(err) => Failed(CaptureRequest(c, NewError(ErrRequestError, err), body))
      case Success(resp) => Receive(c, body, resp)
  }

  /** `Client.request`: the JSON encoding of the payload, then the
      transport and response stages. Whatever goes wrong before an envelope
      is decoded is reported as exactly one error, with no data, no
      extensions and no response. */
  function Request<V>(c: Client, query: string, variables: V, options: Option<OptionsOutput>,
                      encode: RequestPayload<V> -> Result<string, GoError>, ex: Exchange): (r: Reply)
    requires Admissible(c, encode(Payload(query, variables, options)).Success?, ex)
    ensures encode(Payload(query, variables, options)).Failure? ==>
              r == Failed(NewError(ErrGraphQLEncode, encode(Payload(query, variables, options)).error))
    ensures encode(Payload(query, variables, options)).Success? ==>
              r == Send(c, encode(Payload(query, variables, options)).value, ex)
    ensures r.response.None? ==> |r.errors| == 1 && r.data == "" && r.extensions == ""
    ensures r.response.Some? ==> ex.outcome.Success? && r.response == Some(ex.outcome.value.headers)
    ensures |r.data| > 0 ==> r.response.Some?
    ensures c.debug && r.response.Some? ==> r.responseBuffer.Some?
  {
    match encode(Payload(query, variables, options))
    case Failure(err) => Failed(NewError(ErrGraphQLEncode, err))
    case Success(body) => Send(c, body, ex)
  }

  /** Outside debug mode a gzip-encoded response is decoded exactly like
      an unencoded one whose body is the decompressed stream. */
  lemma GzipTransparent(c: Client, body: string, zipped: Response, plain: Response)
    requires !c.debug
    requires IsGzip(zipped) && !IsGzip(plain)
    requires zipped.status == plain.status
    requires zipped.gzip.Inflated? && zipped.gzip.decoded == plain.decoded
    ensures Receive(c, body, zipped).data == Receive(c, body, plain).data
    ensures Receive(c, body, zipped).extensions == Receive(c, body, plain).extensions
    ensures Receive(c, body, zipped).errors == Receive(c, body, plain).errors || zipped.status != 200
  {
  }

  /** In debug mode the JSON decoder reads the copy taken from the raw
      body, so once a gzip reader could be created, what it would inflate
      to makes no difference to the response stage. */
  lemma DebugIgnoresGzip(c: Client, body: string, resp: Response, g: GzipReader)
    requires c.debug && ReceiveAdmissible(c, resp)
    requires !(IsGzip(resp) && resp.gzip.GzipFailed?) && g.Inflated?
    ensures ReceiveAdmissible(c, resp.(gzip := g))
    ensures Receive(c, body, resp.(gzip := g)) == Receive(c, body, resp)
  {
    assert resp.(gzip := g).headers == resp.headers;
  }

  /** Hence in debug mode a gzip-encoded response is decoded from what
      remains of the raw body: a gzip stream that would decode fine does not
      help, and the envelope used is the raw one. */
  lemma DebugDecodesRawBody(c: Client, body: string, resp: Response, env: Envelope)
    requires c.debug && IsGzip(resp) && resp.status == 200 && resp.bodyError.None?
    requires resp.gzip == Inflated(Success(env)) && ReceiveAdmissible(c, resp)
    ensures resp.decoded.Failure? ==>
              && Receive(c, body, resp).response.None?
              && Code(Receive(c, body, resp).errors[0]) == Some(ErrJsonDecode)
    ensures resp.decoded.Success? ==> Receive(c, body, resp) == FromEnvelope(c, body, resp, resp.decoded.value)
  {
  }

  // ---------------------------------------------------------------------
  // Typed decoding and the public entry points.

  /** What a call returns as its Go `error`: the `Errors` list, or a plain
      error passed through unchanged. */
  datatype CallError = ErrorList(errs: Errors) | PlainError(err: GoError)

  /** The `Error()` text of what a call returns. */
  function CallErrorText(e: CallError): string
  {
    match e
    case ErrorList(errs) => ErrorsText(errs)
    case PlainError(err) => ErrorText(err)
  }

  /** The text a call reports when it fails with one error made by
      `newError`: the cause's text, no locations, the classification code as
      the only extension, no path. */
  lemma NewErrorMessage(code: string, cause: GoError)
    ensures CallErrorText(ErrorList([NewError(code, cause)])) == Message(NewError(code, cause))
    ensures Message(NewError(code, cause))
            == "Message: " + ErrorText(cause) + ", Locations: "
               + ("[]" + ", Extensions: " + ("map[" + "code" + ":" + code + "]") + ", Path: " + "[]")
  {
    var e := NewError(code, cause);
    EmptyRenders();
    CodeExtension(code);
    ErrorsTextSingle(e);
  }

  /** The extensions of an error made by `newError` print as its one entry. */
  lemma CodeExtension(code: string)
    ensures RenderExtensions(Some(map["code" := Str(code)])) == "map[" + "code" + ":" + code + "]"
  {
    RenderSingleEntry("code", Str(code));
    assert Render(Str(code)) == code;
  }

  /** The typed decode of non-empty data failed. */
  predicate DataDecodeFails(data: string, typedDecode: Option<GoError>)
  {
    |data| > 0 && typedDecode.Some?
  }

  /** The decode of non-empty raw extensions into a bound target failed. */
  predicate ExtensionsDecodeFails(extensionsBound: bool, rawExtensions: string, extensionsDecode: Option<GoError>)
  {
    |rawExtensions| > 0 && extensionsBound && extensionsDecode.Some?
  }

  /** The `graphql_decode_error` a failed typed decode adds; in debug mode
      it records the response headers and the debug copy of the body. */
  function DecodeError(c: Client, cause: GoError, response: Option<Headers>, buffer: Option<string>): (r: Error)
    requires c.debug ==> response.Some? && buffer.Some?
    ensures Code(r) == Some(ErrGraphQLDecode) && r.err == Some(cause)
    ensures c.debug ==>
              && r.extensions.Some?
              && "internal" in r.extensions.value
              && r.extensions.value["internal"].Object?
              && "response" in r.extensions.value["internal"].fields
              && r.extensions.value["internal"].fields["response"]
                 == Object(map["headers" := HeaderMap(response.value), "body" := Str(buffer.value)])
  {
    var e := NewError(ErrGraphQLDecode, cause);
    if c.debug then
      var d := WithResponse(e, response.value, Some(Success(buffer.value)));
      assert d.extensions.value["code"] == Str(ErrGraphQLDecode);
      d
    else e
  }

  /** `Client.processResponse`. `typedDecode` is the error the typed decode
      of `data` reports and `extensionsDecode` the error the JSON decode of
      the raw extensions reports (None for success); each is consulted only
      when its input is non-empty. The incoming errors come first, then at
      most one `graphql_decode_error`, then at most one
      `graphql_extensions_decode_error`; the result is nil exactly when the
      list is empty. */
  function ProcessResponse(c: Client, data: string, extensionsBound: bool, rawExtensions: string,
                           response: Option<Headers>, buffer: Option<string>, errs: Errors,
                           typedDecode: Option<GoError>, extensionsDecode: Option<GoError>): (r: Option<Errors>)
    requires c.debug && DataDecodeFails(data, typedDecode) ==> response.Some? && buffer.Some?
    ensures var added := (if DataDecodeFails(data, typedDecode) then 1 else 0)
                         + (if ExtensionsDecodeFails(extensionsBound, rawExtensions, extensionsDecode) then 1 else 0);
            && (r.None? <==> |errs| + added == 0)
            && (r.Some? ==> |r.value| == |errs| + added && r.value[..|errs|] == errs)
    ensures DataDecodeFails(data, typedDecode) ==>
              && r.Some? && Code(r.value[|errs|]) == Some(ErrGraphQLDecode)
              && r.value[|errs|].err == typedDecode
    ensures ExtensionsDecodeFails(extensionsBound, rawExtensions, extensionsDecode) ==>
              && r.Some? && Code(r.value[|r.value| - 1]) == Some(ErrGraphQLExtensionsDecode)
              && r.value[|r.value| - 1].err == extensionsDecode
              && r.value[|r.value| - 1].extensions == Some(map["code" := Str(ErrGraphQLExtensionsDecode)])
    ensures DataDecodeFails(data, typedDecode) && c.debug ==>
              && r.value[|errs|].extensions.Some?
              && "internal" in r.value[|errs|].extensions.value
              && r.value[|errs|].extensions.value["internal"].Object?
              && "response" in r.value[|errs|].extensions.value["internal"].fields
              && r.value[|errs|].extensions.value["internal"].fields["response"]
                 == Object(map["headers" := HeaderMap(response.value), "body" := Str(buffer.value)])
  {
    var errs1 :=
      if DataDecodeFails(data, typedDecode)
      then errs + [DecodeError(c, typedDecode.value, response, buffer)]
      else errs;
    var errs2 :=
      if ExtensionsDecodeFails(extensionsBound, rawExtensions, extensionsDecode)
      then errs1 + [NewError(ErrGraphQLExtensionsDecode, extensionsDecode.value)]
      else errs1;
    if |errs2| > 0 then Some(errs2) else None
  }

  /** In debug mode, recording the response on the first envelope error
      reads the debug copy of the body to its end; a typed-decode failure
      later in the same call then records an empty response body. */
  lemma DrainedAfterCapture(c: Client, body: string, resp: Response, out: Envelope, typedDecode: Option<GoError>)
    requires c.debug && |out.errors| > 0 && NeedsCapture(out.errors[0]) && InternalIsMap(out.errors[0])
    requires DataDecodeFails(NonEmpty(out.data), typedDecode)
    ensures var reply := FromEnvelope(c, body, resp, out);
            var errs := ProcessResponse(c, reply.data, false, "", reply.response, reply.responseBuffer,
                                        reply.errors, typedDecode, None);
            && errs.Some? && |errs.value| == |out.errors| + 1
            && errs.value[|out.errors|].extensions.Some?
            && "internal" in errs.value[|out.errors|].extensions.value
            && errs.value[|out.errors|].extensions.value["internal"].Object?
            && "response" in errs.value[|out.errors|].extensions.value["internal"].fields
            && errs.value[|out.errors|].extensions.value["internal"].fields["response"]
               == Object(map["headers" := HeaderMap(resp.headers), "body" := Str("")])
  {
  }

  /** A query text with its options, as the reflection-based builders
      produce them. */
  datatype Built = Built(query: string, options: OptionsOutput)

  const QueryOperation: int := 0
  const MutationOperation: int := 1

  /** `Client.buildQueryAndOptions`: dispatches on the operation type (a
      `uint8`) to the query or mutation builder, whose outcomes are given;
      any failure becomes a one-element list with a `graphql_encode_error`. */
  function BuildQueryAndOptions(op: int, constructQuery: Result<Built, GoError>,
                                constructMutation: Result<Built, GoError>): (r: Result<Built, Errors>)
    requires 0 <= op < 256
    ensures r.Failure? ==> |r.error| == 1 && Code(r.error[0]) == Some(ErrGraphQLEncode)
    ensures op == QueryOperation ==>
              && (r.Success? <==> constructQuery.Success?)
              && (r.Success? ==> r.value == constructQuery.value)
              && (r.Failure? ==> r.error[0].err == Some(constructQuery.error))
    ensures op == MutationOperation ==>
              && (r.Success? <==> constructMutation.Success?)
              && (r.Success? ==> r.value == constructMutation.value)
              && (r.Failure? ==> r.error[0].err == Some(constructMutation.error))
    ensures op != QueryOperation && op != MutationOperation ==>
              r.Failure? && r.error[0].message == "invalid operation type: " + DecimalString(op)
  {
    var built :=
      if op == QueryOperation then constructQuery
      else if op == MutationOperation then constructMutation
      else Failure(Cause("invalid operation type: " + DecimalString(op)));
    match built
    case Failure(err) => Failure([NewError(ErrGraphQLEncode, err)])
    case Success(b) => Success(b)
  }

  /** `Client.doRaw` (behind `QueryRaw` and `MutateRaw`): the raw data is
      returned even when errors are reported next to it. */
  function DoRaw<V>(c: Client, op: int, constructQuery: Result<Built, GoError>,
                    constructMutation: Result<Built, GoError>, variables: V,
                    encode: RequestPayload<V> -> Result<string, GoError>, ex: Exchange): (r: (string, Option<CallError>))
    requires 0 <= op < 256
    requires BuildQueryAndOptions(op, constructQuery, constructMutation).Success? ==>
               var b := BuildQueryAndOptions(op, constructQuery, constructMutation).value;
               Admissible(c, encode(Payload(b.query, variables, Some(b.options))).Success?, ex)
    ensures BuildQueryAndOptions(op, constructQuery, constructMutation).Failure? ==>
              r == ("", Some(ErrorList(BuildQueryAndOptions(op, constructQuery, constructMutation).error)))
    ensures BuildQueryAndOptions(op, constructQuery, constructMutation).Success? ==>
              var b := BuildQueryAndOptions(op, constructQuery, constructMutation).value;
              var reply := Request(c, b.query, variables, Some(b.options), encode, ex);
              && r.0 == reply.data
              && (r.1.None? <==> reply.errors == [])
              && (r.1.Some? ==> r.1 == Some(ErrorList(reply.errors)))
  {
    match BuildQueryAndOptions(op, constructQuery, constructMutation)
    case Failure(errs) => ("", Some(ErrorList(errs)))
    case Success(b) =>
      var reply := Request(c, b.query, variables, Some(b.options), encode, ex);
      (reply.data, if |reply.errors| > 0 then Some(ErrorList(reply.errors)) else None)
  }

  /** A mutation never consults the query builder, and a failing mutation
      builder is the call's only error: `doRaw` returns it with no data. */
  lemma MutationIgnoresQueryBuilder<V>(c: Client, query1: Result<Built, GoError>, query2: Result<Built, GoError>,
                                       mutation: Result<Built, GoError>, variables: V,
                                       encode: RequestPayload<V> -> Result<string, GoError>, ex: Exchange)
    requires BuildQueryAndOptions(MutationOperation, query1, mutation).Success? ==>
               var b := BuildQueryAndOptions(MutationOperation, query1, mutation).value;
               Admissible(c, encode(Payload(b.query, variables, Some(b.options))).Success?, ex)
    ensures BuildQueryAndOptions(MutationOperation, query1, mutation)
            == BuildQueryAndOptions(MutationOperation, query2, mutation)
    ensures DoRaw(c, MutationOperation, query1, mutation, variables, encode, ex)
            == DoRaw(c, MutationOperation, query2, mutation, variables, encode, ex)
    ensures mutation.Failure? ==>
              DoRaw(c, MutationOperation, query1, mutation, variables, encode, ex)
              == ("", Some(ErrorList([NewError(ErrGraphQLEncode, mutation.error)])))
  {
  }

  /** `Client.ExecRaw`: like `doRaw` for a pre-built query, except that a
      failure to construct the options is returned as it is. */
  function ExecRaw<V>(c: Client, query: string, constructOptions: Result<OptionsOutput, GoError>, variables: V,
                      encode: RequestPayload<V> -> Result<string, GoError>, ex: Exchange): (r: (string, Option<CallError>))
    requires constructOptions.Success? ==>
               Admissible(c, encode(Payload(query, variables, Some(constructOptions.value))).Success?, ex)
    ensures constructOptions.Failure? ==> r == ("", Some(PlainError(constructOptions.error)))
    ensures constructOptions.Success? ==>
              var reply := Request(c, query, variables, Some(constructOptions.value), encode, ex);
              && r.0 == reply.data
              && (r.1.None? <==> reply.errors == [])
              && (r.1.Some? ==> r.1 == Some(ErrorList(reply.errors)))
  {
    match constructOptions
    case Failure(err) => ("", Some(PlainError(err)))
    case Success(opts) =>
      var reply := Request(c, query, variables, Some(opts), encode, ex);
      (reply.data, if |reply.errors| > 0 then Some(ErrorList(reply.errors)) else None)
  }

  /** `Client.do` (behind `Query` and `Mutate`): build, send, then decode
      the data and the extensions into their targets. */
  function Do<V>(c: Client, op: int, constructQuery: Result<Built, GoError>,
                 constructMutation: Result<Built, GoError>, variables: V,
                 encode: RequestPayload<V> -> Result<string, GoError>, ex: Exchange,
                 typedDecode: Option<GoError>, extensionsDecode: Option<GoError>): (r: Option<CallError>)
    requires 0 <= op < 256
    requires BuildQueryAndOptions(op, constructQuery, constructMutation).Success? ==>
               var b := BuildQueryAndOptions(op, constructQuery, constructMutation).value;
               Admissible(c, encode(Payload(b.query, variables, Some(b.options))).Success?, ex)
    ensures BuildQueryAndOptions(op, constructQuery, constructMutation).Failure? ==>
              r == Some(ErrorList(BuildQueryAndOptions(op, constructQuery, constructMutation).error))
    ensures BuildQueryAndOptions(op, constructQuery, constructMutation).Success? ==>
              var b := BuildQueryAndOptions(op, constructQuery, constructMutation).value;
              var reply := Request(c, b.query, variables, Some(b.options), encode, ex);
              // A call that fails before an envelope arrives reports exactly
              // that one error: nothing is left to decode.
              && (reply.response.None? ==> r == Some(ErrorList(reply.errors)) && |reply.errors| == 1)
              // Envelope errors come first, then the decode errors.
              && (r.Some? ==> r.value.ErrorList? && |reply.errors| <= |r.value.errs|
                              && r.value.errs[..|reply.errors|] == reply.errors)
              && (r.None? <==> reply.errors == []
                               && !DataDecodeFails(reply.data, typedDecode)
                               && !ExtensionsDecodeFails(b.options.extensionsBound, reply.extensions, extensionsDecode))
  {
    match BuildQueryAndOptions(op, constructQuery, constructMutation)
    case Failure(errs) => Some(ErrorList(errs))
    case Success(b) =>
      var reply := Request(c, b.query, variables, Some(b.options), encode, ex);
      var errs := ProcessResponse(c, reply.data, b.options.extensionsBound, reply.extensions,
                                  reply.response, reply.responseBuffer, reply.errors,
                                  typedDecode, extensionsDecode);
      if errs.Some? then Some(ErrorList(errs.value)) else None
  }

  /** `Client.Exec`: `do` for a pre-built query, except that a failure to
      construct the options is returned as it is. */
  function Exec<V>(c: Client, query: string, constructOptions: Result<OptionsOutput, GoError>, variables: V,
                   encode: RequestPayload<V> -> Result<string, GoError>, ex: Exchange,
                   typedDecode: Option<GoError>, extensionsDecode: Option<GoError>): (r: Option<CallError>)
    requires constructOptions.Success? ==>
               Admissible(c, encode(Payload(query, variables, Some(constructOptions.value))).Success?, ex)
    ensures constructOptions.Failure? ==> r == Some(PlainError(constructOptions.error))
    ensures constructOptions.Success? ==>
              var reply := Request(c, query, variables, Some(constructOptions.value), encode, ex);
              && (r.Some? ==> r.value.ErrorList? && |reply.errors| <= |r.value.errs|
                              && r.value.errs[..|reply.errors|] == reply.errors)
              && (r.None? <==> reply.errors == []
                               && !DataDecodeFails(reply.data, typedDecode)
                               && !ExtensionsDecodeFails(constructOptions.value.extensionsBound, reply.extensions,
                                                         extensionsDecode))
  {
    match constructOptions
    case Failure(err) => Some(PlainError(err))
    case Success(opts) =>
      var reply := Request(c, query, variables, Some(opts), encode, ex);
      var errs := ProcessResponse(c, reply.data, opts.extensionsBound, reply.extensions,
                                  reply.response, reply.responseBuffer, reply.errors,
                                  typedDecode, extensionsDecode);
      if errs.Some? then Some(ErrorList(errs.value)) else None
  }

  /** `Client.ExecRawWithExtensions`: `ExecRaw` that also hands back the
      raw extensions. */
  function ExecRawWithExtensions<V>(c: Client, query: string, constructOptions: Result<OptionsOutput, GoError>,
                                    variables: V, encode: RequestPayload<V> -> Result<string, GoError>,
                                    ex: Exchange): (r: (string, string, Option<CallError>))
    requires constructOptions.Success? ==>
               Admissible(c, encode(Payload(query, variables, Some(constructOptions.value))).Success?, ex)
    ensures constructOptions.Failure? ==> r == ("", "", Some(PlainError(constructOptions.error)))
    ensures constructOptions.Success? ==>
              var reply := Request(c, query, variables, Some(constructOptions.value), encode, ex);
              r.1 == reply.extensions
    ensures (r.0, r.2) == ExecRaw(c, query, constructOptions, variables, encode, ex)
  {
    match constructOptions
    case Failure(err) => ("", "", Some(PlainError(err)))
    case Success(opts) =>
      var reply := Request(c, query, variables, Some(opts), encode, ex);
      (reply.data, reply.extensions, if |reply.errors| > 0 then Some(ErrorList(reply.errors)) else None)
  }

  /** Whether `do` hands a request to the HTTP client: the operation
      builds, its payload encodes, and the HTTP request can be constructed. */
  predicate Dispatched<V>(op: int, constructQuery: Result<Built, GoError>,
                          constructMutation: Result<Built, GoError>, variables: V,
                          encode: RequestPayload<V> -> Result<string, GoError>, ex: Exchange)
    requires 0 <= op < 256
  {
    match BuildQueryAndOptions(op, constructQuery, constructMutation)
    case Failure(_) => false
    case Success(b) => encode(Payload(b.query, variables, Some(b.options))).Success? && ex.constructError.None?
  }

  /** A call that never reached the HTTP client fails. */
  lemma DoFailsUndispatched<V>(c: Client, op: int, constructQuery: Result<Built, GoError>,
                               constructMutation: Result<Built, GoError>, variables: V,
                               encode: RequestPayload<V> -> Result<string, GoError>, ex: Exchange,
                               typedDecode: Option<GoError>, extensionsDecode: Option<GoError>)
    requires 0 <= op < 256
    requires BuildQueryAndOptions(op, constructQuery, constructMutation).Success? ==>
               var b := BuildQueryAndOptions(op, constructQuery, constructMutation).value;
               Admissible(c, encode(Payload(b.query, variables, Some(b.options))).Success?, ex)
    ensures !Dispatched(op, constructQuery, constructMutation, variables, encode, ex) ==>
              Do(c, op, constructQuery, constructMutation, variables, encode, ex, typedDecode, extensionsDecode).Some?
  {
  }

  /** When the typed decodes succeed, `do` reports exactly what `doRaw`
      reports for the same call: the decoding step adds errors and never
      removes one. */
  lemma DoAgreesWithDoRaw<V>(c: Client, op: int, constructQuery: Result<Built, GoError>,
                             constructMutation: Result<Built, GoError>, variables: V,
                             encode: RequestPayload<V> -> Result<string, GoError>, ex: Exchange)
    requires 0 <= op < 256
    requires BuildQueryAndOptions(op, constructQuery, constructMutation).Success? ==>
               var b := BuildQueryAndOptions(op, constructQuery, constructMutation).value;
               Admissible(c, encode(Payload(b.query, variables, Some(b.options))).Success?, ex)
    ensures Do(c, op, constructQuery, constructMutation, variables, encode, ex, None, None)
            == DoRaw(c, op, constructQuery, constructMutation, variables, encode, ex).1
  {
  }
}

=== FILE: graphql_errors.dfy ===
/** The structured errors of the GraphQL client
    (vendor/github.com/hasura/go-graphql-client/graphql.go): the `Error`
    record, the `Errors` list, their `Error()`/`Unwrap()` methods, the
    classification codes, `newError`, and the debug helpers that record the
    raw request and response under the `internal` extension. */
module GraphQLErrors {
  import opened Basics
  import opened Strings
  import opened Headers

  // The classification codes stored under the `code` extension key.
  const ErrRequestError := "request_error"
  const ErrJsonDecode := "json_decode_error"
  const ErrGraphQLEncode := "graphql_encode_error"
  const ErrGraphQLDecode := "graphql_decode_error"
  const ErrGraphQLExtensionsDecode := "graphql_extensions_decode_error"

  /** A Go `error` value, as far as the client distinguishes them. */
  datatype GoError =
    | Cause(text: string)                       // an error raised by a call the model does not see
    | Network(statusCode: int, body: string)    // the client's `NetworkError`
    | Wrapped(context: string, inner: GoError)  // `fmt.Errorf("<context>: %w", inner)`

  /** A Go `any` value as it occurs in an extension map or an error path:
      the JSON kinds, plus the two non-JSON values the debug helpers store
      (an `http.Header` and an `error`). */
  datatype Value =
    | Null
    | Bool(b: bool)
    | Number(n: int)
    | Str(s: string)
    | List(items: seq<Value>)
    | Object(fields: map<string, Value>)
    | HeaderMap(headers: Headers)
    | ErrorValue(err: GoError)

  datatype Location = Location(line: int, column: int)

  /** One GraphQL error. `extensions` is None for a nil map; `err` is the
      wrapped cause (None for errors decoded from a server response). */
  datatype Error = Error(
    message: string,
    extensions: Option<map<string, Value>>,
    locations: seq<Location>,
    path: seq<Value>,
    err: Option<GoError>)

  /** The `Errors` type: an ordered list of errors. */
  type Errors = seq<Error>

  /** `http.StatusText`: the reason phrase net/http knows for a status
      code, or "" for an unknown code. */
  function StatusText(code: int): (r: string)
    ensures r != "" ==> 100 <= code <= 511
  {
    match code
    case 100 => "Continue"
    case 101 => "Switching Protocols"
    case 102 => "Processing"
    case 103 => "Early Hints"
    case 200 => "OK"
    case 201 => "Created"
    case 202 => "Accepted"
    case 203 => "Non-Authoritative Information"
    case 204 => "No Content"
    case 205 => "Reset Content"
    case 206 => "Partial Content"
    case 207 => "Multi-Status"
    case 208 => "Already Reported"
    case 226 => "IM Used"
    case 300 => "Multiple Choices"
    case 301 => "Moved Permanently"
    case 302 => "Found"
    case 303 => "See Other"
    case 304 => "Not Modified"
    case 305 => "Use Proxy"
    case 307 => "Temporary Redirect"
    case 308 => "Permanent Redirect"
    case 400 => "Bad Request"
    case 401 => "Unauthorized"
    case 402 => "Payment Required"
    case 403 => "Forbidden"
    case 404 => "Not Found"
    case 405 => "Method Not Allowed"
    case 406 => "Not Acceptable"
    case 407 => "Proxy Authentication Required"
    case 408 => "Request Timeout"
    case 409 => "Conflict"
    case 410 => "Gone"
    case 411 => "Length Required"
    case 412 => "Precondition Failed"
    case 413 => "Request Entity Too Large"
    case 414 => "Request URI Too Long"
    case 415 => "Unsupported Media Type"
    case 416 => "Requested Range Not Satisfiable"
    case 417 => "Expectation Failed"
    case 418 => "I'm a teapot"
    case 421 => "Misdirected Request"
    case 422 => "Unprocessable Entity"
    case 423 => "Locked"
    case 424 => "Failed Dependency"
    case 425 => "Too Early"
    case 426 => "Upgrade Required"
    case 428 => "Precondition Required"
    case 429 => "Too Many Requests"
    case 431 => "Request Header Fields Too Large"
    case 451 => "Unavailable For Legal Reasons"
    case 500 => "Internal Server Error"
    case 501 => "Not Implemented"
    case 502 => "Bad Gateway"
    case 503 => "Service Unavailable"
    case 504 => "Gateway Timeout"
    case 505 => "HTTP Version Not Supported"
    case 506 => "Variant Also Negotiates"
    case 507 => "Insufficient Storage"
    case 508 => "Loop Detected"
    case 510 => "Not Extended"
    case 511 => "Network Authentication Required"
    case _ => ""
  }

  /** `NetworkError.Error()`: "<status> <reason phrase>". The first
      space-separated field reads back as the status code. */
  function NetworkText(code: int): (r: string)
    ensures DecimalValue(Split(r, ' ')[0]) == code
  {
    var digits := DecimalString(code);
    assert ' ' !in digits by {
      forall i | 0 <= i < |digits| ensures digits[i] != ' ' {
      }
    }
    SplitCons(digits, ' ', StatusText(code));
    digits + " " + StatusText(code)
  }

  /** The contexts a chain of wrapped errors adds, outermost first. */
  function Contexts(e: GoError): seq<string>
  {
    match e
    case Wrapped(context, inner) => [context] + Contexts(inner)
    case _ => []
  }

  /** The text of the error at the end of a chain of wrapped errors. */
  function RootText(e: GoError): string
  {
    match e
    case Cause(t) => t
    case Network(code, _) => NetworkText(code)
    case Wrapped(_, inner) => RootText(inner)
  }

  /** The `Error()` text of a Go error: every context of the chain, then
      the text of the error at its end, separated by ": " (the `%w` format
      "<context>: <inner>"). */
  function ErrorText(e: GoError): (r: string)
    ensures r == Join(Contexts(e) + [RootText(e)], ": ")
    ensures e.Network? ==> DecimalValue(Split(r, ' ')[0]) == e.statusCode
    ensures e.Wrapped? ==> |r| >= |e.context| + 2 && r[..|e.context|] == e.context
                           && r[|e.context|..|e.context| + 2] == ": "
    ensures e.Cause? ==> r == e.text
  {
    match e
    case Cause(t) =>
      JoinSingle(t, ": ");
      t
    case Network(code, _) =>
      JoinSingle(NetworkText(code), ": ");
      NetworkText(code)
    case Wrapped(context, inner) =>
      ChainWrapped(context, inner);
      PrefixSlices(context, ": ", ErrorText(inner));
      context + ": " + ErrorText(inner)
  }

  /** One piece joins to itself. */
  lemma JoinSingle(x: string, sep: string)
    ensures Join([] + [x], sep) == x
  {
    assert [] + [x] == [x];
  }

  /** The pieces of a wrapped chain are its context followed by the
      pieces of the inner chain. */
  lemma ChainWrapped(context: string, inner: GoError)
    ensures Join(Contexts(Wrapped(context, inner)) + [RootText(Wrapped(context, inner))], ": ")
            == context + ": " + Join(Contexts(inner) + [RootText(inner)], ": ")
  {
    var rest := Contexts(inner) + [RootText(inner)];
    assert Contexts(Wrapped(context, inner)) + [RootText(Wrapped(context, inner))] == [context] + rest;
    JoinCons(context, rest, ": ");
  }

  /** Where the parts of a three-part concatenation sit. */
  lemma PrefixSlices(a: string, b: string, c: string)
    ensures |a + b + c| == |a| + |b| + |c|
    ensures (a + b + c)[..|a|] == a && (a + b + c)[|a|..|a| + |b|] == b
  {
  }

  /** A wrapped error reads as its context, ": ", then the text of the
      error it wraps. */
  lemma WrappedText(context: string, inner: GoError)
    ensures ErrorText(Wrapped(context, inner)) == context + ": " + ErrorText(inner)
  {
  }

  // ---------------------------------------------------------------------
  // `%+v` rendering, used by `Error.Error()`.

  /** `fmt`'s `%+v` rendering of a value: maps print as `map[k:v ...]` with
      keys in byte-wise order, slices as `[a b ...]`, nil as `<nil>`, and an
      error as its `Error()` text. */
  function Render(v: Value): (r: string)
    ensures v.Null? ==> r == "<nil>"
    ensures v.List? ==> |r| >= 2 && r[0] == '[' && r[|r| - 1] == ']'
    ensures v.Object? || v.HeaderMap? ==> |r| >= 5 && r[..4] == "map[" && r[|r| - 1] == ']'
    decreases v, 1, 0
  {
    match v
    case Null => "<nil>"
    case Bool(b) => if b then "true" else "false"
    case Number(n) => DecimalString(n)
    case Str(s) => s
    case List(items) => Enclose("[", RenderItems(v, 0))
    case Object(fields) => Enclose("map[", RenderFields(v, SortedKeys(fields.Keys), 0))
    case HeaderMap(h) => Enclose("map[", RenderHeaderFields(h, SortedKeys(h.Keys), 0))
    case ErrorValue(e) => ErrorText(e)
  }

  /** Entries between an opening delimiter and `]`. */
  function Enclose(open: string, inner: string): (r: string)
    ensures r == open + inner + "]"
    ensures |r| == |open| + |inner| + 1 && r[..|open|] == open && r[|r| - 1] == ']'
  {
    open + inner + "]"
  }

  /** The items of a list from position `i` on, separated by spaces. */
  function RenderItems(parent: Value, i: nat): string
    requires parent.List? && i <= |parent.items|
    decreases parent, 0, |parent.items| - i
  {
    if i == |parent.items| then ""
    else (if i > 0 then " " else "") + Render(parent.items[i]) + RenderItems(parent, i + 1)
  }

  /** The `key:value` entries of a map from position `i` of `keys` on. */
  function RenderFields(parent: Value, keys: seq<string>, i: nat): string
    requires parent.Object? && i <= |keys|
    requires forall j :: 0 <= j < |keys| ==> keys[j] in parent.fields
    decreases parent, 0, |keys| - i
  {
    if i == |keys| then ""
    else
      (if i > 0 then " " else "") + keys[i] + ":" + Render(parent.fields[keys[i]])
      + RenderFields(parent, keys, i + 1)
  }

  function RenderStrings(xs: seq<string>): string
  {
    "[" + Join(xs, " ") + "]"
  }

  function RenderHeaderFields(h: Headers, keys: seq<string>, i: nat): string
    requires i <= |keys|
    requires forall j :: 0 <= j < |keys| ==> keys[j] in h
    decreases |keys| - i
  {
    if i == |keys| then ""
    else
      (if i > 0 then " " else "") + keys[i] + ":" + RenderStrings(h[keys[i]])
      + RenderHeaderFields(h, keys, i + 1)
  }

  function RenderLocations(ls: seq<Location>): string
  {
    "[" + Join(seq(|ls|, i requires 0 <= i < |ls| =>
      "{Line:" + DecimalString(ls[i].line) + " Column:" + DecimalString(ls[i].column) + "}"), " ") + "]"
  }

  function RenderExtensions(ext: Option<map<string, Value>>): string
  {
    match ext
    case None => "map[]"
    case Some(m) => Render(Object(m))
  }

  // The layout of `%+v`, stated independently of the recursive printers:
  // the entries, each `key:value` in the order of the listed keys (or each
  // item), joined by single spaces.

  function ItemTexts(items: seq<Value>): (r: seq<string>)
    ensures |r| == |items|
  {
    seq(|items|, i requires 0 <= i < |items| => Render(items[i]))
  }

  function FieldTexts(v: Value, keys: seq<string>): (r: seq<string>)
    requires v.Object? && forall j :: 0 <= j < |keys| ==> keys[j] in v.fields
    ensures |r| == |keys|
  {
    seq(|keys|, j requires 0 <= j < |keys| => keys[j] + ":" + Render(v.fields[keys[j]]))
  }

  function HeaderTexts(h: Headers, keys: seq<string>): (r: seq<string>)
    requires forall j :: 0 <= j < |keys| ==> keys[j] in h
    ensures |r| == |keys|
  {
    seq(|keys|, j requires 0 <= j < |keys| => keys[j] + ":" + RenderStrings(h[keys[j]]))
  }

  /** `%+v` of a slice: its items separated by single spaces. */
  lemma RenderListLayout(items: seq<Value>)
    ensures Render(List(items)) == "[" + Join(ItemTexts(items), " ") + "]"
  {
    RenderItemsJoin(List(items), 0);
    assert ItemTexts(items)[0..] == ItemTexts(items);
  }

  /** `%+v` of a map: its `key:value` entries in byte-wise key order,
      separated by single spaces. */
  lemma RenderObjectLayout(fields: map<string, Value>)
    ensures Render(Object(fields))
            == "map[" + Join(FieldTexts(Object(fields), SortedKeys(fields.Keys)), " ") + "]"
  {
    var keys := SortedKeys(fields.Keys);
    FieldsLayout(Object(fields), keys);
  }

  /** `%+v` of an `http.Header`: `name:[values]` entries in byte-wise name
      order, separated by single spaces. */
  lemma RenderHeaderLayout(h: Headers)
    ensures Render(HeaderMap(h)) == "map[" + Join(HeaderTexts(h, SortedKeys(h.Keys)), " ") + "]"
  {
    var keys := SortedKeys(h.Keys);
    HeaderFieldsLayout(h, keys);
  }

  lemma FieldsLayout(v: Value, keys: seq<string>)
    requires v.Object? && forall j :: 0 <= j < |keys| ==> keys[j] in v.fields
    ensures RenderFields(v, keys, 0) == Join(FieldTexts(v, keys), " ")
  {
    RenderFieldsJoin(v, keys, 0);
    assert FieldTexts(v, keys)[0..] == FieldTexts(v, keys);
  }

  lemma HeaderFieldsLayout(h: Headers, keys: seq<string>)
    requires forall j :: 0 <= j < |keys| ==> keys[j] in h
    ensures RenderHeaderFields(h, keys, 0) == Join(HeaderTexts(h, keys), " ")
  {
    RenderHeaderFieldsJoin(h, keys, 0);
    assert HeaderTexts(h, keys)[0..] == HeaderTexts(h, keys);
  }

  /** Joining from position `i` on: the first piece, then a space and the
      join of the rest. */
  lemma JoinStep(xs: seq<string>, i: nat)
    requires i < |xs|
    ensures Join(xs[i..], " ") == xs[i] + (if i + 1 < |xs| then " " else "") + Join(xs[i + 1..], " ")
  {
    assert xs[i..][1..] == xs[i + 1..];
    if i + 1 == |xs| {
      assert xs[i + 1..] == [];
    }
  }

  lemma {:induction false} RenderItemsJoin(v: Value, i: nat)
    requires v.List? && i <= |v.items|
    ensures RenderItems(v, i) == (if 0 < i < |v.items| then " " else "") + Join(ItemTexts(v.items)[i..], " ")
    decreases |v.items| - i
  {
    var xs := ItemTexts(v.items);
    if i < |v.items| {
      RenderItemsJoin(v, i + 1);
      JoinStep(xs, i);
    } else {
      assert xs[i..] == [];
    }
  }

  lemma {:induction false} RenderFieldsJoin(v: Value, keys: seq<string>, i: nat)
    requires v.Object? && i <= |keys|
    requires forall j :: 0 <= j < |keys| ==> keys[j] in v.fields
    ensures RenderFields(v, keys, i) == (if 0 < i < |keys| then " " else "") + Join(FieldTexts(v, keys)[i..], " ")
    decreases |keys| - i
  {
    var xs := FieldTexts(v, keys);
    if i < |keys| {
      RenderFieldsJoin(v, keys, i + 1);
      JoinStep(xs, i);
    } else {
      assert xs[i..] == [];
    }
  }

  lemma {:induction false} RenderHeaderFieldsJoin(h: Headers, keys: seq<string>, i: nat)
    requires i <= |keys|
    requires forall j :: 0 <= j < |keys| ==> keys[j] in h
    ensures RenderHeaderFields(h, keys, i) == (if 0 < i < |keys| then " " else "") + Join(HeaderTexts(h, keys)[i..], " ")
    decreases |keys| - i
  {
    var xs := HeaderTexts(h, keys);
    if i < |keys| {
      RenderHeaderFieldsJoin(h, keys, i + 1);
      JoinStep(xs, i);
    } else {
      assert xs[i..] == [];
    }
  }

  /** A map with one entry prints as that entry between `map[` and `]`. */
  lemma RenderSingleEntry(k: string, v: Value)
    ensures Render(Object(map[k := v])) == "map[" + k + ":" + Render(v) + "]"
  {
    var fields := map[k := v];
    RenderObjectLayout(fields);
    SingleFieldTexts(k, v);
    var entry := k + ":" + Render(v);
    assert Join([entry], " ") == entry;
    Regroup("map[", k, ":", Render(v), "]");
  }

  lemma Regroup(a: string, b: string, c: string, d: string, e: string)
    ensures a + (b + c + d) + e == a + b + c + d + e
  {
  }

  lemma SingleFieldTexts(k: string, v: Value)
    ensures FieldTexts(Object(map[k := v]), SortedKeys(map[k := v].Keys)) == [k + ":" + Render(v)]
  {
    assert SortedKeys(map[k := v].Keys) == [k] by {
      assert map[k := v].Keys == {k};
      SortedSingleKey(k);
    }
  }


  /** `Error.Error()`. */
  function Message(e: Error): string
  {
    "Message: " + e.message + ", Locations: "
    + (RenderLocations(e.locations) + ", Extensions: " + RenderExtensions(e.extensions)
       + ", Path: " + Render(List(e.path)))
  }

  /** An error's text: the message comes right after "Message: ", followed
      by the locations. */
  lemma MessageLayout(e: Error)
    ensures var r := Message(e);
            && |r| >= 9 + |e.message| + 13 && r[..9] == "Message: "
            && r[9..9 + |e.message|] == e.message
            && r[9 + |e.message|..9 + |e.message| + 13] == ", Locations: "
  {
    var head := "Message: " + e.message + ", Locations: ";
    assert |head| == 9 + |e.message| + 13;
    assert head[9..9 + |e.message|] == e.message;
  }

  /** The texts `text` gives the elements, concatenated in order. */
  function ConcatTexts(errs: Errors, text: Error -> string): (r: string)
    ensures |errs| > 0 ==> |r| >= |text(errs[0])| && r[..|text(errs[0])|] == text(errs[0])
  {
    if |errs| == 0 then "" else text(errs[0]) + ConcatTexts(errs[1..], text)
  }

  /** Concatenating the texts distributes over list concatenation. */
  lemma {:induction false} ConcatTextsAppend(a: Errors, b: Errors, text: Error -> string)
    ensures ConcatTexts(a + b, text) == ConcatTexts(a, text) + ConcatTexts(b, text)
    decreases |a|
  {
    if |a| > 0 {
      assert (a + b)[1..] == a[1..] + b;
      ConcatTextsAppend(a[1..], b, text);
    } else {
      assert a + b == b;
    }
  }

  /** `Errors.Error()`: the messages of the elements in order, with no
      separator between them. */
  function ErrorsText(errs: Errors): (r: string)
    ensures |errs| == 0 <==> r == ""
    ensures |errs| > 0 ==> |r| >= |Message(errs[0])| && r[..|Message(errs[0])|] == Message(errs[0])
  {
    ConcatTexts(errs, Message)
  }

  /** The text of a concatenated list is the text of the first part
      followed by that of the second. */
  lemma ErrorsTextAppend(a: Errors, b: Errors)
    ensures ErrorsText(a + b) == ErrorsText(a) + ErrorsText(b)
  {
    ConcatTextsAppend(a, b, Message);
  }

  /** The text of a one-element list is that element's message. */
  lemma ErrorsTextSingle(e: Error)
    ensures ErrorsText([e]) == Message(e)
  {
    assert [e][1..] == [];
    assert ConcatTexts([e], Message) == Message(e) + ConcatTexts([], Message);
  }

  /** `Errors.Unwrap()`: one wrapped cause per element, in order. */
  function Unwrap(errs: Errors): (r: seq<Option<GoError>>)
    ensures |r| == |errs|
    ensures forall i :: 0 <= i < |errs| ==> r[i] == errs[i].err
  {
    if |errs| == 0 then [] else [errs[0].err] + Unwrap(errs[1..])
  }

  /** Unwrapping distributes over concatenation. */
  lemma UnwrapAppend(a: Errors, b: Errors)
    ensures Unwrap(a + b) == Unwrap(a) + Unwrap(b)
  {
  }

  // ---------------------------------------------------------------------
  // Construction and the `internal` extension.

  /** The classification code of an error: the string under `code`. */
  function Code(e: Error): Option<string>
  {
    if e.extensions.Some? && "code" in e.extensions.value && e.extensions.value["code"].Str?
    then Some(e.extensions.value["code"].s)
    else None
  }

  /** `newError(code, err)`. */
  function NewError(code: string, cause: GoError): (r: Error)
    ensures r.message == ErrorText(cause)
    ensures r.extensions == Some(map["code" := Str(code)])
    ensures Code(r) == Some(code)
    ensures r.err == Some(cause)
    ensures r.locations == [] && r.path == []
  {
    Error(ErrorText(cause), Some(map["code" := Str(code)]), [], [], Some(cause))
  }

  /** The `internal` entry, when present, holds a map. The source reads it
      with an unchecked type assertion, which panics otherwise. */
  predicate InternalIsMap(e: Error)
  {
    e.extensions.Some? && "internal" in e.extensions.value ==> e.extensions.value["internal"].Object?
  }

  /** No locations and an empty path both print as `[]`. */
  lemma EmptyRenders()
    ensures RenderLocations([]) == "[]"
    ensures Render(List([])) == "[]"
  {
    assert Join([], " ") == "";
    assert RenderItems(List([]), 0) == "";
  }


  /** `Error.getInternalExtension()`: the map stored under `internal`, or a
      new empty map when there is none (or no extension map at all). */
  function GetInternalExtension(e: Error): (r: map<string, Value>)
    requires InternalIsMap(e)
    ensures e.extensions.None? ==> r == map[]
    ensures e.extensions.Some? && "internal" !in e.extensions.value ==> r == map[]
    ensures e.extensions.Some? && "internal" in e.extensions.value
            ==> Object(r) == e.extensions.value["internal"]
  {
    if e.extensions.None? then map[]
    else if "internal" in e.extensions.value then e.extensions.value["internal"].fields
    else map[]
  }

  /** The value stored under `internal["request"]` by `withRequest`. */
  function RequestCapture(headers: Headers, body: string): Value
  {
    Object(map["headers" := HeaderMap(headers), "body" := Str(body)])
  }

  /** `Error.withRequest(req, bodyReader)`, with the request reduced to its
      headers and the reader to the outcome of reading it to the end. */
  function WithRequest(e: Error, headers: Headers, body: Result<string, GoError>): (r: Error)
    requires InternalIsMap(e)
    ensures r.message == e.message && r.locations == e.locations
    ensures r.path == e.path && r.err == e.err
    ensures r.extensions.Some?
    ensures "internal" in r.extensions.value && r.extensions.value["internal"].Object?
    ensures r.extensions.value.Keys
            == (if e.extensions.Some? then e.extensions.value.Keys else {}) + {"internal"}
    ensures forall k :: e.extensions.Some? && k in e.extensions.value && k != "internal"
                 ==> r.extensions.value[k] == e.extensions.value[k]
    ensures body.Success? ==>
              r.extensions.value["internal"].fields
              == GetInternalExtension(e)["request" := RequestCapture(headers, body.value)]
    ensures body.Failure? ==>
              r.extensions.value["internal"].fields
              == GetInternalExtension(e)["error" := ErrorValue(body.error)]
    ensures InternalIsMap(r)
  {
    var internal := GetInternalExtension(e);
    var internal' :=
      match body
      case Failure(err) => internal["error" := ErrorValue(err)]
      case Success(b) => internal["request" := RequestCapture(headers, b)];
    var ext := if e.extensions.None? then map[] else e.extensions.value;
    e.(extensions := Some(ext["internal" := Object(internal')]))
  }

  /** `Error.withResponse(res, bodyReader)`, with the response reduced to
      its headers and the reader to None (a nil reader) or the outcome of
      reading it to the end. The source writes into `Extensions` without a
      nil check, so the map must exist. */
  function WithResponse(e: Error, headers: Headers, body: Option<Result<string, GoError>>): (r: Error)
    requires e.extensions.Some?
    requires InternalIsMap(e)
    ensures r.message == e.message && r.locations == e.locations
    ensures r.path == e.path && r.err == e.err
    ensures r.extensions.Some?
    ensures r.extensions.value.Keys == e.extensions.value.Keys + {"internal"}
    ensures forall k :: k in e.extensions.value && k != "internal"
                 ==> r.extensions.value[k] == e.extensions.value[k]
    ensures "internal" in r.extensions.value && r.extensions.value["internal"].Object?
    ensures var internal := r.extensions.value["internal"].fields;
            && "response" in internal
            && internal["response"] == Object(
                 if body.Some? && body.value.Success?
                 then map["headers" := HeaderMap(headers), "body" := Str(body.value.value)]
                 else map["headers" := HeaderMap(headers)])
            && (body.Some? && body.value.Failure? ==> "error" in internal && internal["error"] == ErrorValue(body.value.error))
            && (forall k :: k in GetInternalExtension(e) && k != "response"
                  && !(k == "error" && body.Some? && body.value.Failure?)
                  ==> k in internal && internal[k] == GetInternalExtension(e)[k])
    ensures InternalIsMap(r)
  {
    var internal := GetInternalExtension(e);
    var response := map["headers" := HeaderMap(headers)];
    var (internal', response') :=
      match body
      case None => (internal, response)
      case Some(Failure(err)) => (internal["error" := ErrorValue(err)], response)
      case Some(Success(b)) => (internal, response["body" := Str(b)]);
    e.(extensions := Some(e.extensions.value["internal" := Object(internal'["response" := Object(response')])]))
  }

  /** The debug helpers never touch the classification code. */
  lemma CaptureKeepsCode(e: Error, headers: Headers, req: Result<string, GoError>,
                         resp: Option<Result<string, GoError>>)
    requires InternalIsMap(e)
    ensures Code(WithRequest(e, headers, req)) == Code(e)
    ensures Code(WithResponse(WithRequest(e, headers, req), headers, resp)) == Code(e)
  {
  }
}

=== FILE: headers.dfy ===
/** HTTP header maps with the semantics of Go's `http.Header`: keys are
    stored in canonical form (`x-organization` becomes `X-Organization`),
    `Set` replaces every earlier value, `Add` appends, and `Get` returns the
    first value or the empty string. */
module Headers {

  type Headers = map<string, seq<string>>

  /** A byte allowed in a header field name: a token character of
      section 5.6.2 of RFC 9110. */
  predicate IsTokenChar(c: char)
  {
    || 'a' <= c <= 'z' || 'A' <= c <= 'Z' || '0' <= c <= '9'
    || c in "!#$%&'*+-.^_`|~"
  }

  predicate IsLower(c: char)
  {
    'a' <= c <= 'z'
  }

  predicate IsUpper(c: char)
  {
    'A' <= c <= 'Z'
  }

  function ToUpper(c: char): char
  {
    if IsLower(c) then (c as int - 32) as char else c
  }

  function ToLower(c: char): char
  {
    if IsUpper(c) then (c as int + 32) as char else c
  }

  /** The letter at position `i` starts a word: it is the first one or
      follows a hyphen. */
  predicate StartsWord(s: string, i: nat)
    requires i < |s|
  {
    i == 0 || s[i - 1] == '-'
  }

  /** Upper-cases the first letter and every letter after a hyphen, and
      lower-cases the rest. */
  function Capitalise(s: string): (r: string)
    ensures |r| == |s|
  {
    seq(|s|, i requires 0 <= i < |s| => if StartsWord(s, i) then ToUpper(s[i]) else ToLower(s[i]))
  }

  predicate AllTokenChars(s: string)
  {
    forall i :: 0 <= i < |s| ==> IsTokenChar(s[i])
  }

  /** Go's `CanonicalMIMEHeaderKey`: a name made only of token characters
      is capitalised word by word; any other name is returned unchanged. */
  function CanonicalKey(key: string): (r: string)
    ensures |r| == |key|
    ensures AllTokenChars(key) ==> AllTokenChars(r)
    ensures AllTokenChars(key) ==> forall i :: 0 <= i < |key| ==> ToLower(r[i]) == ToLower(key[i])
    ensures AllTokenChars(key) ==> forall i :: 0 <= i < |r| ==>
              (StartsWord(r, i) ==> !IsLower(r[i])) && (!StartsWord(r, i) ==> !IsUpper(r[i]))
    ensures !AllTokenChars(key) ==> r == key
  {
    if AllTokenChars(key) then
      var r := Capitalise(key);
      forall i | 0 <= i < |key|
        ensures IsTokenChar(r[i]) && ToLower(r[i]) == ToLower(key[i])
        ensures r[i] == '-' <==> key[i] == '-'
        ensures StartsWord(key, i) ==> !IsLower(r[i])
        ensures !StartsWord(key, i) ==> !IsUpper(r[i])
      {
        CaseChange(key[i]);
      }
      assert forall i :: 0 <= i < |r| ==> StartsWord(r, i) == StartsWord(key, i);
      r
    else key
  }

  /** Changing the case of a token character keeps it a token character
      and keeps its lower-case form. */
  lemma CaseChange(c: char)
    requires IsTokenChar(c)
    ensures IsTokenChar(ToUpper(c)) && ToLower(ToUpper(c)) == ToLower(c) && !IsLower(ToUpper(c))
    ensures IsTokenChar(ToLower(c)) && ToLower(ToLower(c)) == ToLower(c) && !IsUpper(ToLower(c))
    ensures ToUpper(c) == '-' <==> c == '-'
    ensures ToLower(c) == '-' <==> c == '-'
  {
  }

  /** Canonicalising a canonical key changes nothing, so a key written by
      `Set` or `Add` is found again by `Get` under any spelling. */
  lemma CanonicalKeyIdempotent(key: string)
    ensures CanonicalKey(CanonicalKey(key)) == CanonicalKey(key)
  {
    if AllTokenChars(key) {
      var r := CanonicalKey(key);
      forall i | 0 <= i < |key|
        ensures r[i] == '-' <==> key[i] == '-'
      {
      }
      assert forall i :: 0 <= i < |key| ==> StartsWord(r, i) == StartsWord(key, i);
    }
  }

  /** The canonical forms of the header names the modelled code uses. */
  lemma CanonicalNames()
    ensures CanonicalKey("x-organization") == "X-Organization"
    ensures CanonicalKey("Authorization") == "Authorization"
    ensures CanonicalKey("Content-Type") == "Content-Type"
    ensures CanonicalKey("Content-Encoding") == "Content-Encoding"
  {
    OrganizationName();
    AuthorizationName();
    ContentTypeName();
    ContentEncodingName();
  }

  lemma OrganizationName()
    ensures CanonicalKey("x-organization") == "X-Organization"
  {
    var key := "x-organization";
    assert forall i :: 0 <= i < |key| ==> IsLower(key[i]) || key[i] == '-';
    assert Capitalise(key) == "X-Organization";
  }

  lemma AuthorizationName()
    ensures CanonicalKey("Authorization") == "Authorization"
  {
    var key := "Authorization";
    assert forall i :: 0 <= i < |key| ==> IsLower(key[i]) || IsUpper(key[i]);
    assert Capitalise(key) == key;
  }

  lemma ContentTypeName()
    ensures CanonicalKey("Content-Type") == "Content-Type"
  {
    var key := "Content-Type";
    assert forall i :: 0 <= i < |key| ==> IsLower(key[i]) || IsUpper(key[i]) || key[i] == '-';
    assert Capitalise(key) == key;
  }

  /** Any spelling of the JSON content-type header reaches the same entry. */
  lemma LowerContentTypeName()
    ensures CanonicalKey("content-type") == "Content-Type"
  {
    var key := "content-type";
    assert forall i :: 0 <= i < |key| ==> IsLower(key[i]) || key[i] == '-';
    assert Capitalise(key) == "Content-Type";
  }

  lemma ContentEncodingName()
    ensures CanonicalKey("Content-Encoding") == "Content-Encoding"
  {
    var key := "Content-Encoding";
    assert forall i :: 0 <= i < |key| ==> IsLower(key[i]) || IsUpper(key[i]) || key[i] == '-';
    assert Capitalise(key) == key;
  }

  /** `Header.Get`: the first value stored under the canonical key, or "". */
  function Get(h: Headers, key: string): (v: string)
    ensures v != "" ==> CanonicalKey(key) in h && |h[CanonicalKey(key)]| > 0 && v == h[CanonicalKey(key)][0]
    ensures CanonicalKey(key) in h && |h[CanonicalKey(key)]| > 0 ==> v == h[CanonicalKey(key)][0]
    ensures CanonicalKey(key) !in h || |h[CanonicalKey(key)]| == 0 ==> v == ""
  {
    var k := CanonicalKey(key);
    if k in h && |h[k]| > 0 then h[k][0] else ""
  }

  /** `Header.Set`: replaces all values under the canonical key. */
  function Set(h: Headers, key: string, value: string): (r: Headers)
    ensures r.Keys == h.Keys + {CanonicalKey(key)}
    ensures r[CanonicalKey(key)] == [value]
    ensures forall k :: k in h && k != CanonicalKey(key) ==> r[k] == h[k]
  {
    h[CanonicalKey(key) := [value]]
  }

  /** `Header.Add`: appends a value under the canonical key. */
  function Add(h: Headers, key: string, value: string): (r: Headers)
    ensures r.Keys == h.Keys + {CanonicalKey(key)}
    ensures CanonicalKey(key) in h ==> r[CanonicalKey(key)] == h[CanonicalKey(key)] + [value]
    ensures CanonicalKey(key) !in h ==> r[CanonicalKey(key)] == [value]
    ensures forall k :: k in h && k != CanonicalKey(key) ==> r[k] == h[k]
  {
    var k := CanonicalKey(key);
    h[k := (if k in h then h[k] else []) + [value]]
  }

  /** A value written with `Set` is what `Get` returns, under the same
      spelling of the key or any other spelling with the same canonical form. */
  lemma GetAfterSet(h: Headers, key: string, other: string, value: string)
    requires CanonicalKey(other) == CanonicalKey(key)
    ensures Get(Set(h, key, value), other) == value
  {
  }
}

=== FILE: strings.dfy ===
/** String helpers standing in for the parts of Go's `strings`, `strconv`
    and `fmt` packages that the modelled code relies on: decimal rendering
    (`%d`), byte-wise string ordering (the order `fmt` prints map keys in),
    concatenation, joining and `strings.Split` on a one-character separator. */
module Strings {

  /** The decimal digit character for 0 <= d <= 9. */
  function DigitChar(d: nat): char
    requires d < 10
  {
    "0123456789"[d]
  }

  predicate IsDigit(c: char)
  {
    '0' <= c <= '9'
  }

  /** The value of a digit character. */
  function DigitValue(c: char): int
  {
    c as int - '0' as int
  }

  lemma DigitCharValue(d: nat)
    requires d < 10
    ensures IsDigit(DigitChar(d)) && DigitValue(DigitChar(d)) == d
  {
    assert DigitChar(d) == (d + '0' as int) as char by {
      if d == 0 { } else if d == 1 { } else if d == 2 { } else if d == 3 { } else if d == 4 { }
      else if d == 5 { } else if d == 6 { } else if d == 7 { } else if d == 8 { } else { }
    }
  }

  /** The number a string of decimal digits denotes: the reading side of
      `Digits`, independent of how the digits were produced. */
  function DigitsValue(s: string): int
  {
    if |s| == 0 then 0 else 10 * DigitsValue(s[..|s| - 1]) + DigitValue(s[|s| - 1])
  }

  /** The number an optionally signed decimal string denotes. */
  function DecimalValue(s: string): int
  {
    if |s| > 0 && s[0] == '-' then -DigitsValue(s[1..]) else DigitsValue(s)
  }

  /** Decimal rendering of a natural number, no leading zeros. Reading the
      digits back gives the number. */
  function Digits(n: nat): (r: string)
    ensures |r| > 0
    ensures forall i :: 0 <= i < |r| ==> IsDigit(r[i])
    ensures r[0] == '0' ==> n == 0
    ensures r[0] == '0' ==> r == "0"
    ensures DigitsValue(r) == n
  {
    DigitCharValue(n % 10);
    if n < 10 then [DigitChar(n)]
    else
      var front := Digits(n / 10);
      var r := front + [DigitChar(n % 10)];
      assert r[..|r| - 1] == front;
      r
  }

  /** Go's `%d` rendering of an integer: a minus sign exactly for negative
      numbers, then the digits of the magnitude. */
  function DecimalString(n: int): (r: string)
    ensures |r| > 0
    ensures n < 0 <==> r[0] == '-'
    ensures forall i :: 0 < i < |r| ==> IsDigit(r[i])
    ensures forall i :: 0 <= i < |r| ==> IsDigit(r[i]) || r[i] == '-'
    ensures r[0] == '0' ==> r == "0"
    ensures n < 0 ==> |r| >= 2 && r[1] != '0'
    ensures DecimalValue(r) == n
  {
    if n < 0 then
      var r := "-" + Digits(-n);
      assert r[1..] == Digits(-n);
      r
    else Digits(n)
  }

  /** `strings.Join(xs, sep)`. */
  function Join(xs: seq<string>, sep: string): string
  {
    if |xs| == 0 then ""
    else if |xs| == 1 then xs[0]
    else xs[0] + sep + Join(xs[1..], sep)
  }

  /** Joining a longer list puts the separator after its first element. */
  lemma JoinCons(x: string, rest: seq<string>, sep: string)
    requires |rest| >= 1
    ensures Join([x] + rest, sep) == x + sep + Join(rest, sep)
  {
    assert ([x] + rest)[1..] == rest;
  }

  /** Number of occurrences of `c` in `s`. */
  function Occurrences(s: string, c: char): nat
  {
    multiset(s)[c]
  }

  /** Position of the first occurrence of `c` in `s`. */
  function IndexOf(s: string, c: char): (i: nat)
    requires c in s
    ensures i < |s| && s[i] == c
    ensures c !in s[..i]
  {
    if s[0] == c then 0 else 1 + IndexOf(s[1..], c)
  }

  /** Position of the last occurrence of `c` in `s`. */
  function LastIndexOf(s: string, c: char): (i: nat)
    requires c in s
    ensures i < |s| && s[i] == c
    ensures c !in s[i + 1..]
  {
    if s[|s| - 1] == c then |s| - 1 else LastIndexOf(s[..|s| - 1], c)
  }

  /** `strings.Split(s, string(sep))`: the pieces of `s` between occurrences
      of `sep`. As in Go, the empty string splits into one empty piece, and
      n separators always give n + 1 pieces. */
  function Split(s: string, sep: char): (pieces: seq<string>)
    ensures |pieces| == Occurrences(s, sep) + 1
    ensures forall i :: 0 <= i < |pieces| ==> sep !in pieces[i]
    ensures Join(pieces, [sep]) == s
    decreases |s|
  {
    if sep !in s then [s]
    else
      var i := IndexOf(s, sep);
      assert s == s[..i] + [sep] + s[i + 1..];
      [s[..i]] + Split(s[i + 1..], sep)
  }

  /** Splitting `a + [sep] + rest`, with `sep` not in `a`, gives `a` and
      then the pieces of `rest`. */
  lemma SplitCons(a: string, sep: char, rest: string)
    requires sep !in a
    ensures Split(a + [sep] + rest, sep) == [a] + Split(rest, sep)
  {
    var s := a + [sep] + rest;
    assert s[|a|] == sep;
    assert s[..|a|] == a;
    assert s[|a| + 1..] == rest;
  }

  /** Joining pieces free of the separator and splitting the result again
      gives the pieces back: `Split` is the inverse of `Join`. */
  lemma {:induction false} SplitJoin(pieces: seq<string>, sep: char)
    requires |pieces| >= 1
    requires forall i :: 0 <= i < |pieces| ==> sep !in pieces[i]
    ensures Split(Join(pieces, [sep]), sep) == pieces
    decreases |pieces|
  {
    if |pieces| > 1 {
      var rest := Join(pieces[1..], [sep]);
      assert Join(pieces, [sep]) == pieces[0] + [sep] + rest;
      SplitCons(pieces[0], sep, rest);
      SplitJoin(pieces[1..], sep);
      assert pieces == [pieces[0]] + pieces[1..];
    }
  }

  /** Byte-wise ordering of strings: the order Go's `<` gives on strings,
      and the order `fmt` uses when it prints a map. */
  predicate LexLe(a: string, b: string)
    decreases |a|
  {
    |a| == 0 || (|b| > 0 && (a[0] < b[0] || (a[0] == b[0] && LexLe(a[1..], b[1..]))))
  }

  lemma {:induction false} LexLeTotal(a: string, b: string)
    ensures LexLe(a, b) || LexLe(b, a)
    decreases |a|
  {
    if |a| > 0 && |b| > 0 && a[0] == b[0] {
      LexLeTotal(a[1..], b[1..]);
    }
  }

  lemma {:induction false} LexLeReflexive(a: string)
    ensures LexLe(a, a)
    decreases |a|
  {
    if |a| > 0 {
      LexLeReflexive(a[1..]);
    }
  }

  lemma {:induction false} LexLeAntisymmetric(a: string, b: string)
    requires LexLe(a, b) && LexLe(b, a)
    ensures a == b
    decreases |a|
  {
    if |a| > 0 {
      LexLeAntisymmetric(a[1..], b[1..]);
      assert a == [a[0]] + a[1..];
      assert b == [b[0]] + b[1..];
    }
  }

  lemma {:induction false} LexLeTransitive(a: string, b: string, c: string)
    requires LexLe(a, b) && LexLe(b, c)
    ensures LexLe(a, c)
    decreases |a|
  {
    if |a| > 0 && a[0] == b[0] && b[0] == c[0] {
      LexLeTransitive(a[1..], b[1..], c[1..]);
    }
  }

  /** `k` is the least element of `ks` in byte-wise order. */
  predicate IsLeast(k: string, ks: set<string>)
  {
    k in ks && forall j :: j in ks ==> LexLe(k, j)
  }

  lemma {:induction false} LeastExists(ks: set<string>)
    requires ks != {}
    ensures exists k :: IsLeast(k, ks)
    decreases ks
  {
    var x :| x in ks;
    LexLeReflexive(x);
    if ks == {x} {
      assert IsLeast(x, ks);
    } else {
      LeastExists(ks - {x});
      var m :| IsLeast(m, ks - {x});
      LexLeTotal(x, m);
      if LexLe(x, m) {
        forall j | j in ks
          ensures LexLe(x, j)
        {
          if j != x {
            LexLeTransitive(x, m, j);
          }
        }
        assert IsLeast(x, ks);
      } else {
        assert IsLeast(m, ks);
      }
    }
  }

  lemma LeastUnique(ks: set<string>)
    ensures forall a, b :: IsLeast(a, ks) && IsLeast(b, ks) ==> a == b
  {
    forall a, b | IsLeast(a, ks) && IsLeast(b, ks)
      ensures a == b
    {
      LexLeAntisymmetric(a, b);
    }
  }

  /** The elements of a finite set of strings in strictly increasing
      byte-wise order: the key order `fmt` prints a map in. */
  function SortedKeys(ks: set<string>): (r: seq<string>)
    ensures |r| == |ks|
    ensures forall i :: 0 <= i < |r| ==> r[i] in ks
    ensures forall k :: k in ks ==> k in r
    ensures forall i, j :: 0 <= i < j < |r| ==> LexLe(r[i], r[j]) && r[i] != r[j]
    decreases ks
  {
    if ks == {} then []
    else
      LeastExists(ks);
      LeastUnique(ks);
      var k :| IsLeast(k, ks);
      var rest := SortedKeys(ks - {k});
      var r := [k] + rest;
      forall i, j | 0 <= i < j < |r|
        ensures LexLe(r[i], r[j]) && r[i] != r[j]
      {
        assert r[j] == rest[j - 1] && rest[j - 1] in ks - {k};
        if i > 0 {
          assert r[i] == rest[i - 1];
        }
      }
      r
  }

  /** One key is listed alone. */
  lemma SortedSingleKey(k: string)
    ensures SortedKeys({k}) == [k]
  {
    var r := SortedKeys({k});
    assert |r| == 1;
    assert r[0] in {k};
  }

}
